=== FILE: README.md ===
# Headless WordPress REST client — a Dafny model

This project models the deterministic core of a TypeScript client that reads
posts, categories, tags and media from the WordPress REST API (`/wp-json/wp/v2`)
for a headless front end. It covers:

- error normalisation: every failure becomes one `WordPressApiError`
  (`ApiErrors`);
- the query, header and HTML-text helpers (`ApiUtils`);
- page arithmetic for the pagination controls (`PaginationUtils`);
- the post transforms used by the pages: excerpt, reading time, validation,
  the status filter, sorting and grouping (`DataTransforms`);
- the REST client class, with its query-string serialisation (`ApiClient`);
- the repository functions built on the client (`WordPressApi`).

Supporting modules:

- `Wrappers`: `Option` and `Result`.
- `JsValues`: JavaScript values, records that keep key order, and truthiness
  written out as predicates.
- `JsStrings`: the `String` built-ins the code relies on (`trim`, `replace`
  with a global pattern, `substring`, `lastIndexOf`, `split(/\s+/)`, number
  formatting).
- `WpTypes`: the post, term, media and parameter records, with only the
  fields the code reads.

## How effects are modelled

The network is a parameter:

- `ApiClient` takes `fetch` as a function from a `Request` (URL, search
  parameters, headers) to what awaiting it produced: a thrown value or a
  response.
- A response carries what awaiting `response.json()` gives: the parsed
  body, or the value it rejects with. A body that is not JSON rejects with
  a SyntaxError; a body stream that fails to read rejects with a TypeError.
- `WordPressApi` takes the client as an `Api` value. Each endpoint of the
  client is a function field that answers with success or a
  `WordPressApiError`.
- Building the URL (`new URL`, percent-encoding the search parameters and
  `url.toString()`) is folded into `fetch`, which receives the base URL plus
  endpoint and the list of search parameters as they were appended.
- The locale date formatting and the `Date` timestamp are parameters
  (`formatDate`, `timeOf`).

Code that updates state step by step is written as methods:

- `ApiUtils.BuildPostQuery` fills the query record one guarded assignment at
  a time; it is proved equal to the function `ApiUtils.PostQuery`.
- `ApiClient.AppendParams` appends search parameters in a loop; it is proved
  equal to the function `ApiClient.QueryPairs`.
- `DataTransforms.GroupPostsByCategory` assigns one key per category in a
  loop; it is proved equal to the function `DataTransforms.Grouped`.
- `PaginationUtils.GeneratePageNumbers` reassigns the window start. It has
  no specification function: its contract states the properties that fix
  the window (length, bounds, consecutive pages, the current page, and where
  the window starts or ends).
- `ApiClient.WordPressApiClient` is a class with the client's two fields.
  Its `Get` and `GetWithHeaders` are proved to return the functions
  `ApiClient.ReadBody` and `ApiClient.ReadBodyAndHeaders` of what `fetch`
  answers to the request `RequestFor` describes.

## Model

| member | source | states |
|---|---|---|
| ApiErrors.HandleApiError | src/lib/api-errors.ts:19-55 | A WordPressApiError passes through unchanged. A TypeError mentioning "fetch" becomes NETWORK_ERROR with status 0. Otherwise a truthy status gives HTTP_ERROR with that status, and the message defaults to "HTTP Error {status}". Otherwise a truthy code and message are kept, with status `data.status` or 500 and the data retained. Anything else is UNKNOWN_ERROR with status 500. |
| ApiErrors.HandleApiErrorIdempotent | src/lib/api-errors.ts:20-22 | Normalising an already normalised error returns it unchanged, so normalising twice equals normalising once. |
| ApiErrors.HandleApiErrorClassifies | src/lib/api-errors.ts:24-54 | Every normalised thrown value carries one of NETWORK_ERROR (status 0), HTTP_ERROR, the remote code (status non-zero), or UNKNOWN_ERROR (status 500). |
| ApiErrors.IsNetworkFailure | src/lib/api-errors.ts:25 | Only a TypeError with a message can be a network failure, and the browsers' "Failed to fetch" TypeError is one. |
| ApiErrors.DataStatus | src/lib/api-errors.ts:44 | The status is `data.status` when that is a non-zero number, and 500 in every other case; it is never 0. |
| ApiErrors.CheckResponse | src/lib/api-errors.ts:58-79 | It fails exactly when the response is not OK. An OK response is returned unchanged. A failure carries the response's status. Its message is the body's `message` when present, else "HTTP {status}: {statusText}". Its code is the body's `code` when present, else HTTP_ERROR. |
| ApiErrors.BodyString | src/lib/api-errors.ts:63-70 | A body field is used exactly when the body parsed and the field is a non-empty string. |
| ApiErrors.CheckResponseUnparsedBody | src/lib/api-errors.ts:71-75 | A body whose `json()` rejects, for any reason, leaves the status-line message and the HTTP_ERROR code in place. |
| ApiErrors.CheckResponseErrorIsFinal | src/lib/api-errors.ts:20-22 | The error raised for a non-OK response survives the client's catch-all normalisation unchanged. |
| ApiUtils.PostQuery | src/lib/api-utils.ts:4-28 | The query record holds the ten keys in the order the code assigns them. It is the specification of `BuildPostQuery`. |
| ApiUtils.BuildPostQuery | src/lib/api-utils.ts:4-28 | The guarded assignments build exactly `PostQuery(params)`. |
| ApiUtils.AddPagination | src/lib/api-utils.ts:8-10 | Appends the page, per_page and offset entries, each only when truthy. |
| ApiUtils.AddFilters | src/lib/api-utils.ts:13-21 | Appends search, author, categories, tags and status, each only when truthy or non-empty. |
| ApiUtils.AddOrdering | src/lib/api-utils.ts:24-25 | Appends order and orderby, each only when set. |
| ApiUtils.PostQueryLookup | src/lib/api-utils.ts:8-25 | For every key, the query's value is the filter's value when that is truthy (for arrays, non-empty); otherwise the key is absent. |
| ApiUtils.PostQueryDropsFalsy | src/lib/api-utils.ts:8-20 | A page of 0, an empty search, or an empty categories or tags array is left out of the query. |
| ApiUtils.PostQueryValuesKept | src/lib/api-utils.ts:4-28 | Every query key is one of the ten parameter names, and every value is truthy. |
| ApiUtils.ParamsOfPostQuery | src/lib/api-utils.ts:8-25 | Reading a field back from the query gives the kept value of that field of the filter. |
| ApiUtils.PostQueryIdempotent | src/lib/api-utils.ts:8-25 | Building the query again from the query itself gives the same query. |
| ApiUtils.ExtractPaginationInfo | src/lib/api-utils.ts:31-37 | The two counts are never negative, and a missing header reads as 0. `currentPage` is always 1. |
| ApiUtils.ExtractPaginationInfoReadsCounts | src/lib/api-utils.ts:33-34 | In any well-formed header map, whatever other headers it holds, a total or page-count header written from a count is read back as exactly that count. |
| ApiUtils.CountHeadersWellFormed | src/lib/api-utils.ts:33-34 | Pagination headers written from counts are well formed, whatever other headers the map holds. |
| ApiUtils.StripTags | src/lib/api-utils.ts:52 | Removing `<…>` spans never lengthens the text. |
| ApiUtils.StripTagsLeavesNoTag | src/lib/api-utils.ts:52 | After stripping, no `<` is followed anywhere later by `>`. |
| ApiUtils.StripTagsKeeps | src/lib/api-utils.ts:52 | Stripping only removes: every character of the result occurs in the input. |
| ApiUtils.StripTagsIdentity | src/lib/api-utils.ts:52 | A text in which no `<` is followed later by `>` is left unchanged. |
| ApiUtils.StripTagsIdempotent | src/lib/api-utils.ts:52 | Stripping twice equals stripping once. |
| ApiUtils.StripTagsKeepsPrefix | src/lib/api-utils.ts:52 | Text before the first `<` is kept as it is, followed by the stripped rest. |
| ApiUtils.StripTagsDropsTag | src/lib/api-utils.ts:52 | A `<` with a later `>` is removed with everything up to the first such `>`. With StripTagsKeepsPrefix and StripTagsIdentity this fixes the result on every text, as `/<[^>]*>/g` does. |
| ApiUtils.DecodeEntities | src/lib/api-utils.ts:55-60 | Decoding the five entities never lengthens the text, and text without an ampersand is left unchanged. |
| ApiUtils.DecodeEntitiesTwice | src/lib/api-utils.ts:55-60 | `&amp;` is decoded first, so `&amp;lt;` decodes to `<`: entities are decoded twice over. |
| ApiUtils.DecodedEntitiesFormTags | src/lib/api-utils.ts:52-60 | Decoding runs after stripping, so the plain text of `&lt;b&gt;` is `<b>`, which again has a `<` before a `>`. |
| ApiUtils.DecodedText | src/lib/api-utils.ts:52-60 | The stripped and decoded text is never longer than the HTML. |
| ApiUtils.ExtractPlainText | src/lib/api-utils.ts:50-67 | It truncates only for a truthy limit that the untrimmed decoded length exceeds. It then returns the trimmed first `maxLength` characters plus "...". Otherwise it returns the trimmed decoded text. |
| ApiUtils.ExtractPlainTextBounded | src/lib/api-utils.ts:62-64 | With a positive limit the result is at most three characters longer than the limit. |
| ApiUtils.ExtractPlainTextUntruncated | src/lib/api-utils.ts:66 | Without a limit the result has no leading or trailing whitespace and is no longer than the HTML. |
| PaginationUtils.CreatePaginationParams | src/lib/pagination-utils.ts:4-13 | The page defaults to 1 and the page size to 10. Both are copied into the parameters, and the offset is `(page - 1) * perPage` of the values used, whether they were passed or defaulted. |
| PaginationUtils.OffsetsAdvanceByPage | src/lib/pagination-utils.ts:11 | Page 1 starts at offset 0, and each page starts one page size after the previous one. |
| PaginationUtils.OffsetCountsEarlierPages | src/lib/pagination-utils.ts:11 | For page >= 1 and a positive page size, the offset is non-negative and exactly `page - 1` whole pages. |
| PaginationUtils.DefaultPaginationParams | src/lib/pagination-utils.ts:5-6 | The defaults are page 1 of 10 posts, at offset 0. |
| PaginationUtils.CalculatePaginationInfo | src/lib/pagination-utils.ts:27-43 | The four inputs are copied. There is a next page exactly when `currentPage < totalPages`, and it is `currentPage + 1`, at most totalPages. There is a previous page exactly when `currentPage > 1`, and it is `currentPage - 1`, at least 1. |
| PaginationUtils.NextThenPrev | src/lib/pagination-utils.ts:38-41 | Going to the next page and then back returns to the same page, and so does the reverse. |
| PaginationUtils.FirstAndLastPage | src/lib/pagination-utils.ts:39-41 | Page 1 has no previous page and the last page has no next page. |
| PaginationUtils.Run | src/lib/pagination-utils.ts:52-63 | `Array.from` with a length: `n` consecutive integers from `start`, or none for a negative length. |
| PaginationUtils.GeneratePageNumbers | src/lib/pagination-utils.ts:46-64 | `maxVisible` defaults to 5. When every page fits, the result is exactly `1..totalPages`. Otherwise it holds exactly `maxVisible` consecutive pages within `[1, totalPages]` and contains the current page. It starts `maxVisible / 2` before the current page, unless that window overruns the last page, in which case it ends at `totalPages`. |
| DataTransforms.WordCount | src/lib/data-transforms.ts:18 | The number of whitespace-separated pieces is at least 1, even for empty text. |
| JsStrings.SplitKeepsText | src/lib/data-transforms.ts:18 | Splitting on whitespace loses only whitespace: the pieces joined together are the text with its whitespace removed. |
| JsStrings.SplitTrimmedPieces | src/lib/data-transforms.ts:18 | A non-empty text with no whitespace at either end splits into non-empty pieces only. |
| JsStrings.SplitOneWord | src/lib/data-transforms.ts:18 | A text with no whitespace is a single piece, itself. |
| JsStrings.SplitAfterWord | src/lib/data-transforms.ts:18 | A word followed by a maximal run of whitespace is split off whole as the first piece, and splitting goes on after the run. With SplitOneWord this fixes every piece as a maximal run of non-whitespace. |
| DataTransforms.WordCountByWords | src/lib/data-transforms.ts:18 | The count goes word by word: a single word counts 1, and a word followed by a whitespace run adds 1 to the count of the text after the run. |
| DataTransforms.WordCountCountsWords | src/lib/data-transforms.ts:18 | For the plain text of any HTML, the count is the number of pieces. Unless the text is empty every piece is non-empty, and the pieces hold all the non-whitespace characters in order. That each piece is a whole word is stated by SplitOneWord and SplitAfterWord. |
| DataTransforms.ReadingMinutes | src/lib/data-transforms.ts:19 | The reading time is the ceiling of words / 200. |
| DataTransforms.TermNames | src/lib/data-transforms.ts:22-29 | Lists no more names than terms supplied. |
| DataTransforms.TermNamesMembers | src/lib/data-transforms.ts:22-29 | A name is listed exactly when some supplied term with that name has an id the post carries. |
| DataTransforms.TermNamesAppend | src/lib/data-transforms.ts:22-29 | Names keep the order of the supplied list. |
| DataTransforms.TransformPostForDisplay | src/lib/data-transforms.ts:6-47 | The result copies the post's fields. The excerpt is the plain text capped at 160 characters. The reading time is at least 1 and is the ceiling of words / 200. The category and tag names are those of the terms whose id the post carries. |
| DataTransforms.DisplayExcerptBounded | src/lib/data-transforms.ts:42 | The display excerpt is at most 163 characters long. |
| DataTransforms.ValidatePost | src/lib/data-transforms.ts:50-60 | Only objects pass validation. |
| DataTransforms.ValidatePostShape | src/lib/data-transforms.ts:50-60 | A value is accepted exactly when it is an object with a numeric id, a string slug, and title and content objects whose `rendered` is a string. |
| DataTransforms.PostJsonValid | src/lib/data-transforms.ts:50-60 | Every post, written as JSON, passes validation. |
| DataTransforms.ValidatePostIgnoresExcerptAndStatus | src/lib/data-transforms.ts:50-60 | Setting the excerpt or the status to any value never changes the verdict. |
| DataTransforms.FilterPublishedPosts | src/lib/data-transforms.ts:63-65 | Keeps only published posts and never lengthens the list. |
| DataTransforms.FilterPublishedCounts | src/lib/data-transforms.ts:63-65 | A published post is kept as often as it occurs in the input, and any other post never appears. |
| DataTransforms.FilterPublishedAppend | src/lib/data-transforms.ts:63-65 | The filter keeps the input order. |
| DataTransforms.Insert | src/lib/data-transforms.ts:72-76 | Inserting adds exactly the one element. |
| DataTransforms.InsertSorted | src/lib/data-transforms.ts:72-76 | Inserting into a sorted sequence keeps it sorted. |
| DataTransforms.InsertionSort | src/lib/data-transforms.ts:72-76 | The result is a permutation of the input, sorted by the key. |
| DataTransforms.InsertionSortStable | src/lib/data-transforms.ts:72-76 | Posts with equal keys keep their relative order. |
| DataTransforms.SortPostsByDate | src/lib/data-transforms.ts:68-77 | The result is a permutation of the posts. It is newest first by default and oldest first for "asc". The input is a value and is left as it was. |
| DataTransforms.SortPostsByDateStable | src/lib/data-transforms.ts:72-76 | Posts with the same timestamp keep their input order. |
| DataTransforms.PostsInCategory | src/lib/data-transforms.ts:87-89 | Every listed post carries the category id, and no posts are added. |
| DataTransforms.PostsInCategoryCounts | src/lib/data-transforms.ts:87-89 | A post is listed exactly as often as it occurs in the input when it carries the id, and otherwise never. |
| DataTransforms.PostsInCategoryAppend | src/lib/data-transforms.ts:87-89 | The listing keeps the input order. |
| DataTransforms.Grouped | src/lib/data-transforms.ts:84-90 | Every key is the name of a visited category, and the last visited category's name maps to its posts. |
| DataTransforms.GroupedKeys | src/lib/data-transforms.ts:80-93 | There is one key per category name. |
| DataTransforms.GroupedValues | src/lib/data-transforms.ts:86-90 | Each name maps to the posts of the last category bearing that name; later categories overwrite earlier ones. |
| DataTransforms.GroupPostsByCategory | src/lib/data-transforms.ts:80-93 | The loop builds the grouping: one key per name, and for each name the posts of its last category. |
| DataTransforms.CreateExcerpt | src/lib/data-transforms.ts:96-100 | The plain text is returned unchanged when it fits within the limit (160 by default). |
| DataTransforms.Excerpt | src/lib/data-transforms.ts:98-109 | Text that fits is returned as it is, and text that does not fit ends in "...". |
| DataTransforms.ExcerptCut | src/lib/data-transforms.ts:102-109 | A text longer than the limit becomes a prefix plus "...". The prefix is cut at the last space before the limit when that space lies past 80% of the limit, and otherwise at the limit. |
| DataTransforms.CreateExcerptCut | src/lib/data-transforms.ts:96-109 | An over-long text obeys that cutting rule. |
| DataTransforms.CreateExcerptBounded | src/lib/data-transforms.ts:96-109 | For a non-negative limit the excerpt is at most three characters longer than the limit. |
| ApiClient.ParamString | src/lib/api-client.ts:26-30 | `undefined` and `null` give nothing. An empty array gives the empty string. Numbers give their decimal text and strings give themselves. |
| ApiClient.ParamStringNumbers | src/lib/api-client.ts:27-28 | A number array gives its decimal numbers separated by commas. |
| ApiClient.QueryPairs | src/lib/api-client.ts:23-34 | There are no more pairs than keys. |
| ApiClient.QueryPairsAppend | src/lib/api-client.ts:24 | Pairs follow the key order of the parameters. |
| ApiClient.QueryPairsNoNullish | src/lib/api-client.ts:24-31 | With no nullish value, each key gives exactly one pair, with its own key, in order. |
| ApiClient.QueryPairsSkipsNullish | src/lib/api-client.ts:26 | A key whose value is `undefined` or `null` contributes no pair. |
| ApiClient.PostQuerySerialised | src/lib/api-client.ts:23-34 | A post query serialises to one pair per key, in order. |
| ApiClient.AppendParams | src/lib/api-client.ts:23-34 | The loop appends exactly the pairs of the parameters, and none when they are absent. |
| ApiClient.ReadBodyAndHeaders | src/lib/api-client.ts:87-101 | A thrown value becomes its normalised error. A non-OK response becomes the error checkResponse raised. A success happens exactly for an OK response with a JSON body, and yields that body and the headers. Otherwise the rejection of `response.json()` is normalised: a body that is not JSON gives UNKNOWN_ERROR, and a body stream failing with a TypeError that mentions "fetch" gives NETWORK_ERROR. |
| ApiClient.ReadBodyErrorsNormalised | src/lib/api-client.ts:41-46 | Every error the client raises has passed through handleApiError: a rejection is normalised itself, a non-OK response through the error checkResponse raised, and an OK response whose body cannot be read through the rejection of `response.json()`. |
| ApiClient.ReadBody | src/lib/api-client.ts:41-43 | `get` succeeds exactly for an OK response with a JSON body, and returns that body. It succeeds and fails together with `getWithHeaders`, with the same body and the same error. |
| ApiClient.WordPressApiClient.constructor | src/lib/api-client.ts:9-15 | The base URL is the configured API URL, and the headers ask for JSON. |
| ApiClient.WordPressApiClient.RequestFor | src/lib/api-client.ts:20-39 | The request URL is the base URL followed by the endpoint, with the default headers and the serialised parameters. |
| ApiClient.WordPressApiClient.Get | src/lib/api-client.ts:18-47 | `get` returns what the fetch of that request yields, read through checkResponse and handleApiError. |
| ApiClient.WordPressApiClient.GetWithHeaders | src/lib/api-client.ts:67-102 | The same request as `get`, answered with the body and the headers. |
| ApiClient.WordPressApiClient.HealthCheck | src/lib/api-client.ts:105-113 | The result is true exactly when the GET of `/posts?per_page=1`, which has no separate parameters, answers OK with a JSON body; a failure gives false. |
| WordPressApi.GetPosts | src/lib/wordpress-api.ts:16-30 | Lists `/posts` with the post query. The totals are read from the headers, and the current page is `params.page` when truthy, else 1. A failure propagates. |
| WordPressApi.GetPostsCurrentPage | src/lib/wordpress-api.ts:28 | The reported page is never 0, and a missing page is reported as 1. |
| WordPressApi.GetPostBySlug | src/lib/wordpress-api.ts:33-41 | Returns the first post found with the slug, or nothing when none was found or the request failed. |
| WordPressApi.GetPostById | src/lib/wordpress-api.ts:44-52 | Returns the post at `/posts/{id}`, or nothing when the request failed. |
| WordPressApi.GetCategories | src/lib/wordpress-api.ts:82-90 | Returns the categories, or an empty list on failure. |
| WordPressApi.GetTags | src/lib/wordpress-api.ts:93-101 | Returns the tags, or an empty list on failure. |
| WordPressApi.GetFeaturedMedia | src/lib/wordpress-api.ts:104-114 | Id 0 gives nothing. Any other id gives the media at `/media/{id}`, or nothing on failure. |
| WordPressApi.FeaturedMediaZeroSkipsClient | src/lib/wordpress-api.ts:105 | For id 0 the answer does not depend on the client at all. |
| WordPressApi.TransformToSimplifiedPost | src/lib/wordpress-api.ts:117-130 | Copies id, the rendered title, content and excerpt, slug, date, author, categories and tags; the featured image is never set. |
| WordPressApi.SimplifiedIgnoresFeaturedMedia | src/lib/wordpress-api.ts:126 | The featured media id has no effect on the projection. |
| WordPressApi.DisplayExtendsSimplified | src/lib/data-transforms.ts:31-40 | The display record's base fields are exactly the simplified projection. |
| WordPressApi.ByCategory | src/lib/wordpress-api.ts:59 | Sets `categories` to `[id]` and keeps every other field. |
| WordPressApi.ByTag | src/lib/wordpress-api.ts:68 | Sets `tags` to `[id]` and keeps every other field. |
| WordPressApi.BySearch | src/lib/wordpress-api.ts:77 | Sets `search` to the term and keeps every other field. |
| WordPressApi.GetPostsByCategory | src/lib/wordpress-api.ts:55-61 | A post listing with the category override. |
| WordPressApi.GetPostsByTag | src/lib/wordpress-api.ts:64-70 | A post listing with the tag override. |
| WordPressApi.SearchPosts | src/lib/wordpress-api.ts:73-79 | A post listing with the search override. |
| WordPressApi.OverrideKeepsOtherKeys | src/lib/wordpress-api.ts:59-77 | Filters that differ in one field give the same query value for every other key. |
| WordPressApi.ByCategoryQuery | src/lib/wordpress-api.ts:59 | The query sends `categories=[id]`, and every other key is as the filter had it. |
| WordPressApi.ByTagQuery | src/lib/wordpress-api.ts:68 | The query sends `tags=[id]`, and every other key is as the filter had it. |
| WordPressApi.BySearchQuery | src/lib/wordpress-api.ts:77 | The query sends the search term unless it is empty, and every other key is as the filter had it. |
| WordPressApi.RecentParams | src/lib/wordpress-api.ts:164-169 | The filter asks for `count` posts (default 5), ordered by date, descending, and nothing else. |
| WordPressApi.RecentQuery | src/lib/wordpress-api.ts:165-169 | The query is per_page (absent for a count of 0), then order=desc, then orderby=date. |
| WordPressApi.GetRecentPosts | src/lib/wordpress-api.ts:164-172 | The recent posts are the simplified forms of the listed posts, in order, and a failure propagates. |
| WordPressApi.WithFeaturedImage | src/lib/wordpress-api.ts:140-152 | The URL is present exactly when the media id is positive and the media lookup found an item, and it is that item's source URL. |
| WordPressApi.GetPostsWithFeaturedImages | src/lib/wordpress-api.ts:133-161 | There is one item per listed post, in the same order. The pagination fields are copied, and a failure of the listing propagates. |
| WordPressApi.NoMediaNoUrl | src/lib/wordpress-api.ts:143-151 | A post whose media id is 0 or less never gets an image URL. |

## Left out

- Network I/O: `fetch` is a parameter, and the outcome of
  `response.json()` and the headers are part of the response it answers
  with (see above). URL parsing and percent-encoding happen inside `fetch`
  and are not modelled.
- The `post` method of the client (src/lib/api-client.ts:50-64) is not part
  of this model. It sends a body over the network and nothing of it is
  pure.
- `formatWordPressDate` (src/lib/api-utils.ts:40-47) is a parameter
  `formatDate`, because it relies on locale date formatting.
- `validateApiUrl` (src/lib/api-utils.ts:70-77) and `buildPaginationUrl` in
  src/lib/pagination-utils.ts depend on the URL parser and
  `window.location`.
- `new Date(...).getTime()` in the date sort is a parameter `timeOf` to
  integer timestamps. The NaN of an unparsable date is not modelled.
- The sort is modelled as a stable insertion sort. `Array.prototype.sort`
  is stable, so any result it produces is this one.
- src/config/index.ts and the exported singleton instance are not part of
  this model; the constructor takes the API URL as a parameter.
- `console.error` logging is not modelled.
- `Promise.all` in `getPostsWithFeaturedImages` is a sequential map; the
  concurrency is not modelled.
- Numbers are integers. Floating-point values, NaN and Infinity are not
  modelled.
- The excerpt's `lastSpace > maxLength * 0.8` is the exact integer test
  `5 * lastSpace > 4 * maxLength`. Rounding of the float product is not
  modelled.
- String lengths count characters, not UTF-16 code units.
- `ApiUtils.ExtractPaginationInfo`: header values are restricted to decimal
  digit strings or the empty string. A non-numeric header makes `parseInt`
  produce NaN, which is not modelled.
- Header names are matched exactly. The case-insensitive lookup of
  `Headers.get` is not modelled.
- ApiErrors.CheckResponse: a truthy error body `message` or `code` that is
  not a string is ignored, where the source copies it (a numeric `code` of
  404 would become the error code). src/types/api.ts:9-15 declares both as
  strings, and the model keeps to that.
- ApiErrors.BodyString: for the same reason, only non-empty strings are read
  from the error body; any other truthy value is treated as missing.
- ApiErrors.DataStatus: a truthy `data.status` that is not a number (such as
  the string "404") gives 500, where the source keeps it.
  src/types/api.ts:9-15 declares it as a number.
- `ApiErrors.HandleApiError`: the thrown value's `message` and `code` are
  strings or absent. Non-string truthy values, and a thrown `null` or
  `undefined`, are not modelled.
- `ApiClient.ReadBodyAndHeaders`: the JSON parse failure is a SyntaxError
  with no status. Its exact message text is not modelled; only the
  resulting UNKNOWN_ERROR is.
- `ApiClient.WordPressApiClient.Get`: the unchecked cast of the parsed body
  to `T` is modelled in `WordPressApi` by oracle functions that already
  return typed values.
- `DataTransforms.ValidatePost` is modelled as a truth value. The source
  returns the first falsy operand, which is then used only as a condition.
- `DataTransforms.GroupPostsByCategory` returns a `map`. The key order of
  the resulting object, including JavaScript's ordering of integer-like
  keys, is not modelled. Nor is a category named `__proto__`: in the
  source, assigning that key to a plain object runs the prototype setter
  and creates no own key, so `Object.keys` does not list it. The model's
  map holds that key.
- `DataTransforms.GroupedKeys`: "one key per category name" holds for the
  model's map. In the source it fails for a category named `__proto__`,
  which gets no own key.

=== FILE: api_client.dfy ===
/**
 * The REST client: it appends the query parameters to the request URL,
 * performs the request and turns every failure into a WordPressApiError.
 * The network itself is a parameter: `fetch` maps a request to what the
 * request produced, a thrown value or a response.
 */
module ApiClient {
  import opened Wrappers
  import opened JsValues
  import opened ApiErrors
  import JsStrings
  import WpTypes
  import ApiUtils

  /** A `key=value` pair of the URL's search parameters. */
  type QueryPair = (string, string)

  /** A GET request: the URL text, the search parameters appended to it, and the headers. */
  datatype Request = Request(url: string, query: seq<QueryPair>, headers: map<string, string>)

  /** What awaiting `fetch` produced: a rejection or a response. */
  datatype FetchOutcome = Threw(thrown: Thrown) | Responded(response: Response)

  const DefaultHeaders: map<string, string> := map["Content-Type" := "application/json", "Accept" := "application/json"]

  /** The value a parameter contributes: none for `undefined`/`null`, arrays joined with `,`, else `toString()`. */
  function ParamString(v: JsValue): (r: Option<string>)
    ensures r.None? <==> IsNullish(v)
    ensures v.Arr? && v.items == [] ==> r == Some("")
    ensures v.Num? ==> r == Some(JsStrings.IntToString(v.n))
    ensures v.Str? ==> r == Some(v.s)
  {
    // for an array, `String(value)` is `value.join(',')`
    if IsNullish(v) then None else Some(ToStr(v))
  }

  /** A `number[]` parameter becomes its numbers in decimal, separated by commas. */
  lemma ParamStringNumbers(xs: seq<int>)
    ensures ParamString(Arr(Nums(xs))) ==
              Some(JsStrings.Join(seq(|xs|, i requires 0 <= i < |xs| => JsStrings.IntToString(xs[i])), ","))
  {
    var items := Nums(xs);
    assert seq(|items|, i requires 0 <= i < |items| => if IsNullish(items[i]) then "" else ToStr(items[i]))
        == seq(|xs|, i requires 0 <= i < |xs| => JsStrings.IntToString(xs[i]));
  }

  /** The pairs one record entry contributes. */
  function PairsOf(entry: (string, JsValue)): seq<QueryPair> {
    match ParamString(entry.1)
    case None => []
    case Some(s) => [(entry.0, s)]
  }

  /** The search parameters of a record: one pair per non-nullish entry, in key order. */
  function QueryPairs(params: Record): (r: seq<QueryPair>)
    ensures |r| <= |params|
  {
    if params == [] then []
    else QueryPairs(params[..|params| - 1]) + PairsOf(params[|params| - 1])
  }

  /** Serialising a concatenation serialises each part in turn. */
  lemma {:induction false} QueryPairsAppend(a: Record, b: Record)
    ensures QueryPairs(a + b) == QueryPairs(a) + QueryPairs(b)
    decreases |b|
  {
    if b == [] {
      assert a + b == a;
    } else {
      var init := b[..|b| - 1];
      assert (a + b)[..|a + b| - 1] == a + init;
      QueryPairsAppend(a, init);
    }
  }

  /** With no `undefined` or `null` value, every entry gives exactly one pair, with its own key, in order. */
  lemma {:induction false} QueryPairsNoNullish(params: Record)
    requires forall i :: 0 <= i < |params| ==> !IsNullish(params[i].1)
    ensures |QueryPairs(params)| == |params|
    ensures forall i :: 0 <= i < |params| ==>
              QueryPairs(params)[i] == (params[i].0, ParamString(params[i].1).value)
  {
    if params != [] {
      var init, last := params[..|params| - 1], params[|params| - 1];
      QueryPairsNoNullish(init);
      assert PairsOf(last) == [(last.0, ParamString(last.1).value)];
      var q := QueryPairs(params);
      assert q == QueryPairs(init) + PairsOf(last);
      forall i | 0 <= i < |params| ensures q[i] == (params[i].0, ParamString(params[i].1).value) {
        if i < |init| {
          assert q[i] == QueryPairs(init)[i] && init[i] == params[i];
        }
      }
    }
  }

  /** An entry whose value is `undefined` or `null` leaves no trace. */
  lemma QueryPairsSkipsNullish(a: Record, key: string, v: JsValue, b: Record)
    requires IsNullish(v)
    ensures QueryPairs(a + [(key, v)] + b) == QueryPairs(a + b)
  {
    var entry := [(key, v)];
    assert QueryPairs(entry) == [] by {
      assert entry[..0] == [];
    }
    QueryPairsAppend(a + entry, b);
    QueryPairsAppend(a, entry);
    QueryPairsAppend(a, b);
    assert QueryPairs(a + entry) == QueryPairs(a);
  }

  /** The query buildPostQuery builds holds no nullish value, so it serialises to one pair per key, in order. */
  lemma PostQuerySerialised(p: WpTypes.PostQueryParams)
    ensures var q := ApiUtils.PostQuery(p);
            |QueryPairs(q)| == |q| && forall i :: 0 <= i < |q| ==> QueryPairs(q)[i].0 == q[i].0
  {
    ApiUtils.PostQueryValuesKept(p);
    QueryPairsNoNullish(ApiUtils.PostQuery(p));
  }

  /**
   * After the request: a rejection and a non-OK response both become the
   * normalised error; an OK response yields its parsed body, or, when
   * `response.json()` rejects, the error normalised from its rejection.
   */
  function ReadBodyAndHeaders(outcome: FetchOutcome): (r: Result<(JsValue, map<string, string>), ApiError>)
    ensures outcome.Threw? ==> r == Failure(HandleApiError(outcome.thrown))
    ensures outcome.Responded? && !outcome.response.Ok() ==> r == Failure(CheckResponse(outcome.response).error)
    ensures r.Success? <==> outcome.Responded? && outcome.response.Ok() && outcome.response.body.Success?
    ensures r.Success? ==> r.value == (outcome.response.body.value, outcome.response.headers)
    ensures outcome.Responded? && outcome.response.Ok() && outcome.response.body == Failure(JsonParseFailure) ==>
              r == Failure(ApiError(UnknownMessage, "UNKNOWN_ERROR", 500, Undefined))
    ensures outcome.Responded? && outcome.response.Ok() && outcome.response.body.Failure?
            && IsNetworkFailure(outcome.response.body.error) ==>
              r == Failure(ApiError(NetworkMessage, "NETWORK_ERROR", 0, Undefined))
  {
    match outcome
    case Threw(t) => Failure(HandleApiError(t))
    case Responded(response) =>
      match CheckResponse(response)
      case Failure(e) => Failure(HandleApiError(WpError(e)))
      case Success(_) =>
        match response.body
        case Success(data) => Success((data, response.headers))
        case Failure(t) => Failure(HandleApiError(t))
  }

  /** `response.json()` rejecting a body that is not JSON: a SyntaxError, carrying no status and no code. */
  const JsonParseFailure := Raised(false, Some("SyntaxError"), None, None, Undefined)

  /**
   * The body alone, as `get` returns it: `get` and `getWithHeaders` succeed
   * on the same outcomes, with the same body, and fail with the same error.
   */
  function ReadBody(outcome: FetchOutcome): (r: Result<JsValue, ApiError>)
    ensures r.Success? <==> outcome.Responded? && outcome.response.Ok() && outcome.response.body.Success?
    ensures r.Success? ==> r.value == outcome.response.body.value && ReadBodyAndHeaders(outcome).value.0 == r.value
    ensures r.Failure? ==> ReadBodyAndHeaders(outcome).Failure? && r.error == ReadBodyAndHeaders(outcome).error
  {
    match ReadBodyAndHeaders(outcome)
    case Success(v) => Success(v.0)
    case Failure(e) => Failure(e)
  }

  /**
   * Every error the client raises has passed through handleApiError: the
   * rejection itself, the error checkResponse raised, or the rejection of
   * `response.json()`.
   */
  lemma ReadBodyErrorsNormalised(outcome: FetchOutcome)
    ensures outcome.Threw? ==> ReadBodyAndHeaders(outcome) == Failure(HandleApiError(outcome.thrown))
    ensures outcome.Responded? && !outcome.response.Ok() ==>
              ReadBodyAndHeaders(outcome) == Failure(HandleApiError(WpError(CheckResponse(outcome.response).error)))
    ensures outcome.Responded? && outcome.response.Ok() && outcome.response.body.Failure? ==>
              ReadBodyAndHeaders(outcome) == Failure(HandleApiError(outcome.response.body.error))
  {
    if outcome.Responded? && !outcome.response.Ok() {
      CheckResponseErrorIsFinal(outcome.response);
    }
  }

  /**
   * Appends the search parameters of `params` (none when it is absent),
   * one key at a time in key order, as the `forEach` over `Object.keys`
   * does.
   */
  method AppendParams(params: Option<Record>) returns (query: seq<QueryPair>)
    ensures params.None? ==> query == []
    ensures params.Some? ==> query == QueryPairs(params.value)
  {
    query := [];
    if params.Some? {
      var ps := params.value;
      var i := 0;
      while i < |ps|
        invariant 0 <= i <= |ps|
        invariant query == QueryPairs(ps[..i])
      {
        var value := ps[i].1;
        if !IsNullish(value) {
          query := query + [(ps[i].0, ToStr(value))];
        }
        i := i + 1;
        assert ps[..i][..i - 1] == ps[..i - 1];
      }
      assert ps[..i] == ps;
    }
  }

  class WordPressApiClient {
    var baseUrl: string
    var defaultHeaders: map<string, string>

    /** The client for the API at `apiUrl`, which the configuration supplies. */
    constructor(apiUrl: string)
      ensures baseUrl == apiUrl && defaultHeaders == DefaultHeaders
    {
      baseUrl := apiUrl;
      defaultHeaders := DefaultHeaders;
    }

    /** The request `get` and `getWithHeaders` send for `endpoint` and `params`. */
    function RequestFor(endpoint: string, params: Option<Record>): (r: Request)
      reads this
      ensures r.url == baseUrl + endpoint && r.headers == defaultHeaders
      ensures params.Some? ==> r.query == QueryPairs(params.value)
      ensures params.None? ==> r.query == []
    {
      Request(baseUrl + endpoint, if params.Some? then QueryPairs(params.value) else [], defaultHeaders)
    }

    /** get: the parsed body of a GET of `endpoint` with `params`, or the normalised error. */
    method Get(endpoint: string, params: Option<Record>, fetch: Request -> FetchOutcome) returns (r: Result<JsValue, ApiError>)
      ensures r == ReadBody(fetch(RequestFor(endpoint, params)))
    {
      var query := AppendParams(params);
      var outcome := fetch(Request(baseUrl + endpoint, query, defaultHeaders));
      r := ReadBody(outcome);
    }

    /** getWithHeaders: the same request as `get`, answered with the body and the response headers. */
    method GetWithHeaders(endpoint: string, params: Option<Record>, fetch: Request -> FetchOutcome)
      returns (r: Result<(JsValue, map<string, string>), ApiError>)
      ensures r == ReadBodyAndHeaders(fetch(RequestFor(endpoint, params)))
    {
      var query := AppendParams(params);
      var outcome := fetch(Request(baseUrl + endpoint, query, defaultHeaders));
      r := ReadBodyAndHeaders(outcome);
    }

    /**
     * healthCheck: whether a GET of one post succeeds; the query is part of
     * the path, not a parameter, and a failure is reported as `false`.
     */
    method HealthCheck(fetch: Request -> FetchOutcome) returns (healthy: bool)
      ensures var outcome := fetch(Request(baseUrl + "/posts?per_page=1", [], defaultHeaders));
              healthy <==> outcome.Responded? && outcome.response.Ok() && outcome.response.body.Success?
    {
      var r := Get("/posts?per_page=1", None, fetch);
      healthy := r.Success?;
    }
  }
}

=== FILE: api_errors.dfy ===
/**
 * Error normalisation: every failure the client can meet becomes one
 * WordPressApiError value carrying a message, a machine code, an HTTP
 * status and optionally the raw payload.
 */
module ApiErrors {
  import opened Wrappers
  import opened JsValues
  import JsStrings

  /** A WordPressApiError; `data` is `Undefined` when the constructor got none. */
  datatype ApiError = ApiError(message: string, code: string, status: int, data: JsValue)

  /**
   * What a `catch` clause can receive: an error this module already built,
   * or any other thrown value, described by the properties the classifier
   * reads (`undefined` properties are None, an absent `data` is `Undefined`).
   */
  datatype Thrown =
    | WpError(err: ApiError)
    | Raised(isTypeError: bool, message: Option<string>, status: Option<int>,
             code: Option<string>, data: JsValue)

  const NetworkMessage := "Network error: Unable to connect to WordPress API"
  const UnknownMessage := "An unknown error occurred"

  /** A fetch failure: a TypeError whose message mentions "fetch". */
  predicate IsNetworkFailure(t: Thrown)
    ensures IsNetworkFailure(t) ==> t.Raised? && t.isTypeError && t.message.Some?
    ensures t.Raised? && t.isTypeError && t.message == Some("Failed to fetch") ==> IsNetworkFailure(t)
  {
    // the message browsers give a failed fetch
    JsStrings.ContainsAt("Failed to fetch", "fetch", 10);
    t.Raised? && t.isTypeError && JsStrings.Contains(t.message.GetOr(""), "fetch")
  }

  /** `error.data?.status || 500`. */
  function DataStatus(data: JsValue): (s: int)
    ensures s != 0
    ensures (Get(data, "status").Some? && Get(data, "status").value.Num? && Get(data, "status").value.n != 0)
            ==> s == Get(data, "status").value.n
    ensures !(Get(data, "status").Some? && Get(data, "status").value.Num? && Get(data, "status").value.n != 0)
            ==> s == 500
  {
    match Get(data, "status")
    case Some(Num(n)) => if n != 0 then n else 500
    case _ => 500
  }

  /** handleApiError: the five cases, tried in order. */
  function HandleApiError(t: Thrown): (e: ApiError)
    // 1. passthrough
    ensures t.WpError? ==> e == t.err
    // 2. network failure
    ensures IsNetworkFailure(t) ==> e == ApiError(NetworkMessage, "NETWORK_ERROR", 0, Undefined)
    // 3. a truthy status wins over code and message
    ensures t.Raised? && !IsNetworkFailure(t) && TruthyInt(t.status) ==>
              && e.code == "HTTP_ERROR" && e.status == t.status.value && e.data == Undefined
              && e.message == (if TruthyStr(t.message) then t.message.value
                               else "HTTP Error " + JsStrings.IntToString(t.status.value))
    // 4. a remote {code, message} body passes through
    ensures t.Raised? && !IsNetworkFailure(t) && !TruthyInt(t.status)
            && TruthyStr(t.code) && TruthyStr(t.message) ==>
              e == ApiError(t.message.value, t.code.value, DataStatus(t.data), t.data)
    // 5. everything else
    ensures t.Raised? && !IsNetworkFailure(t) && !TruthyInt(t.status)
            && !(TruthyStr(t.code) && TruthyStr(t.message)) ==>
              e == ApiError(UnknownMessage, "UNKNOWN_ERROR", 500, Undefined)
  {
    match t
    case WpError(err) => err
    case Raised(isTypeError, message, status, code, data) =>
      if IsNetworkFailure(t) then
        ApiError(NetworkMessage, "NETWORK_ERROR", 0, Undefined)
      else if TruthyInt(status) then
        var msg := if TruthyStr(message) then message.value
                   else "HTTP Error " + JsStrings.IntToString(status.value);
        ApiError(msg, "HTTP_ERROR", status.value, Undefined)
      else if TruthyStr(code) && TruthyStr(message) then
        ApiError(message.value, code.value, DataStatus(data), data)
      else
        ApiError(UnknownMessage, "UNKNOWN_ERROR", 500, Undefined)
  }

  /** Normalising twice is normalising once, since every result is a WordPressApiError. */
  lemma HandleApiErrorIdempotent(t: Thrown)
    ensures HandleApiError(WpError(HandleApiError(t))) == HandleApiError(t)
  {
  }

  /** Every normalised error is a network error, an HTTP error, a remote error or an unknown one. */
  lemma HandleApiErrorClassifies(t: Thrown)
    requires t.Raised?
    ensures var e := HandleApiError(t);
            || (e.code == "NETWORK_ERROR" && e.status == 0)
            || (e.code == "HTTP_ERROR" && t.status == Some(e.status) && e.status != 0)
            || (t.code == Some(e.code) && t.message == Some(e.message) && e.status != 0)
            || (e.code == "UNKNOWN_ERROR" && e.status == 500)
  {
  }

  // ------------------------------------------------------------ checkResponse

  /**
   * A fetch Response: its status line, its headers, and what awaiting
   * `response.json()` gives: the parsed body, or the value it rejects with
   * (a SyntaxError for a body that is not JSON, a TypeError when reading
   * the body stream fails).
   */
  datatype Response = Response(status: int, statusText: string, headers: map<string, string>,
                               body: Result<JsValue, Thrown>)
  {
    /** `response.ok`: the status is in the success range. */
    predicate Ok() {
      200 <= status <= 299
    }
  }

  /** A non-empty string property of a parsed JSON body, if there is one. */
  function BodyString(body: Result<JsValue, Thrown>, key: string): (r: Option<string>)
    ensures r.Some? ==> r.value != ""
    ensures r.Some? <==> body.Success? && Get(body.value, key).Some?
                         && Get(body.value, key).value.Str? && Get(body.value, key).value.s != ""
    ensures r.Some? ==> r.value == Get(body.value, key).value.s
  {
    if body.Failure? then None
    else match Get(body.value, key)
      case Some(Str(s)) => if s != "" then Some(s) else None
      case _ => None
  }

  /**
   * checkResponse: a successful response passes through; any other becomes
   * an error whose message and code the JSON body may override.
   */
  function CheckResponse(response: Response): (r: Result<Response, ApiError>)
    ensures response.Ok() <==> r.Success?
    ensures r.Success? ==> r.value == response
    ensures r.Failure? ==>
              && r.error.status == response.status
              && r.error.data == Undefined
              && r.error.message == BodyString(response.body, "message").GetOr(
                   "HTTP " + JsStrings.IntToString(response.status) + ": " + response.statusText)
              && r.error.code == BodyString(response.body, "code").GetOr("HTTP_ERROR")
  {
    if response.Ok() then Success(response)
    else
      var errorMessage := "HTTP " + JsStrings.IntToString(response.status) + ": " + response.statusText;
      var errorCode := "HTTP_ERROR";
      var errorMessage := if BodyString(response.body, "message").Some? then BodyString(response.body, "message").value else errorMessage;
      var errorCode := if BodyString(response.body, "code").Some? then BodyString(response.body, "code").value else errorCode;
      Failure(ApiError(errorMessage, errorCode, response.status, Undefined))
  }

  /** A response whose body cannot be read as JSON, for whatever reason, keeps the status-line message and the generic code. */
  lemma CheckResponseUnparsedBody(response: Response)
    requires !response.Ok() && response.body.Failure?
    ensures CheckResponse(response) == Failure(ApiError(
              "HTTP " + JsStrings.IntToString(response.status) + ": " + response.statusText,
              "HTTP_ERROR", response.status, Undefined))
  {
  }

  /** The error checkResponse raises survives the client's catch-all normalisation unchanged. */
  lemma CheckResponseErrorIsFinal(response: Response)
    requires !response.Ok()
    ensures var e := CheckResponse(response).error; HandleApiError(WpError(e)) == e
  {
  }
}

=== FILE: api_utils.dfy ===
/**
 * Query building, pagination headers and HTML-to-text extraction.
 */
module ApiUtils {
  import opened Wrappers
  import opened JsValues
  import opened WpTypes
  import JsStrings

  // ------------------------------------------------------------ buildPostQuery

  /** The ten fields of a post filter, in the order buildPostQuery copies them. */
  datatype Param = Page | PerPage | Offset | Search | Author | Categories | Tags | Status | Order | OrderByField
  {
    /** The field's key in the filter and in the query record. */
    function Key(): string {
      match this
      case Page => "page"
      case PerPage => "per_page"
      case Offset => "offset"
      case Search => "search"
      case Author => "author"
      case Categories => "categories"
      case Tags => "tags"
      case Status => "status"
      case Order => "order"
      case OrderByField => "orderby"
    }
  }

  /** The field a key names, if any. */
  function ParamNamed(key: string): Option<Param> {
    if key == "page" then Some(Page)
    else if key == "per_page" then Some(PerPage)
    else if key == "offset" then Some(Offset)
    else if key == "search" then Some(Search)
    else if key == "author" then Some(Author)
    else if key == "categories" then Some(Categories)
    else if key == "tags" then Some(Tags)
    else if key == "status" then Some(Status)
    else if key == "order" then Some(Order)
    else if key == "orderby" then Some(OrderByField)
    else None
  }

  lemma ParamNamedKey(k: Param)
    ensures ParamNamed(k.Key()) == Some(k)
  {
  }

  lemma ParamNamedInverse(key: string)
    ensures ParamNamed(key).Some? ==> ParamNamed(key).value.Key() == key
  {
  }

  function OptNum(o: Option<int>): Option<JsValue> {
    if o.Some? then Some(Num(o.value)) else None
  }

  function OptStr(o: Option<string>): Option<JsValue> {
    if o.Some? then Some(Str(o.value)) else None
  }

  function OptNums(o: Option<seq<int>>): Option<JsValue> {
    if o.Some? then Some(Arr(Nums(o.value))) else None
  }

  /** `params[key]` as a JavaScript value; None is `undefined`. */
  function FieldValue(p: PostQueryParams, k: Param): Option<JsValue> {
    match k
    case Page => OptNum(p.page)
    case PerPage => OptNum(p.perPage)
    case Offset => OptNum(p.offset)
    case Search => OptStr(p.search)
    case Author => OptNum(p.author)
    case Categories => OptNums(p.categories)
    case Tags => OptNums(p.tags)
    case Status => OptStr(p.status)
    case Order => if p.order.Some? then Some(Str(p.order.value.Name())) else None
    case OrderByField => if p.orderBy.Some? then Some(Str(p.orderBy.value.Name())) else None
  }

  /** `params[key]` for any key: undefined outside the ten fields. */
  function ValueAt(p: PostQueryParams, key: string): Option<JsValue> {
    if ParamNamed(key).Some? then FieldValue(p, ParamNamed(key).value) else None
  }

  /** The guard of each copy: truthy, and for the two arrays also non-empty. */
  predicate Kept(v: JsValue) {
    Truthy(v) && !(v.Arr? && |v.items| == 0)
  }

  /** The value buildPostQuery writes for a field: the input's own value when kept, else nothing. */
  function KeptValue(o: Option<JsValue>): (r: Option<JsValue>)
    ensures r.Some? ==> r == o && Kept(r.value)
  {
    if o.Some? && Kept(o.value) then o else None
  }

  /** One guarded assignment `if (params.key) query.key = params.key`. */
  function Entry(p: PostQueryParams, k: Param): Record {
    var o := FieldValue(p, k);
    if KeptValue(o).Some? then [(k.Key(), o.value)] else []
  }

  /** The record buildPostQuery returns, its keys in insertion order. */
  function PostQuery(p: PostQueryParams): Record {
    Entry(p, Page) + Entry(p, PerPage) + Entry(p, Offset) + Entry(p, Search) + Entry(p, Author)
    + Entry(p, Categories) + Entry(p, Tags) + Entry(p, Status) + Entry(p, Order) + Entry(p, OrderByField)
  }

  /** buildPostQuery: fills the query record one guarded assignment at a time. */
  method BuildPostQuery(params: PostQueryParams) returns (query: Record)
    ensures query == PostQuery(params)
  {
    query := [];
    query := AddPagination(params, query);
    query := AddFilters(params, query);
    query := AddOrdering(params, query);
    assert [] + Entry(params, Page) == Entry(params, Page);
  }

  /** The pagination assignments of buildPostQuery. */
  method AddPagination(params: PostQueryParams, query0: Record) returns (query: Record)
    ensures query == query0 + Entry(params, Page) + Entry(params, PerPage) + Entry(params, Offset)
  {
    query := query0;
    if TruthyInt(params.page) { query := query + [("page", Num(params.page.value))]; }
    if TruthyInt(params.perPage) { query := query + [("per_page", Num(params.perPage.value))]; }
    if TruthyInt(params.offset) { query := query + [("offset", Num(params.offset.value))]; }
  }

  /** The filtering assignments of buildPostQuery; empty category and tag lists are skipped. */
  method AddFilters(params: PostQueryParams, query0: Record) returns (query: Record)
    ensures query == query0 + Entry(params, Search) + Entry(params, Author) + Entry(params, Categories)
                     + Entry(params, Tags) + Entry(params, Status)
  {
    query := query0;
    if TruthyStr(params.search) { query := query + [("search", Str(params.search.value))]; }
    assert query == query0 + Entry(params, Search);
    ghost var mid := query;
    if TruthyInt(params.author) { query := query + [("author", Num(params.author.value))]; }
    assert query == mid + Entry(params, Author);
    mid := query;
    if params.categories.Some? && |params.categories.value| > 0 {
      query := query + [("categories", Arr(Nums(params.categories.value)))];
    }
    assert query == mid + Entry(params, Categories);
    mid := query;
    if params.tags.Some? && |params.tags.value| > 0 {
      query := query + [("tags", Arr(Nums(params.tags.value)))];
    }
    assert query == mid + Entry(params, Tags);
    mid := query;
    if TruthyStr(params.status) { query := query + [("status", Str(params.status.value))]; }
    assert query == mid + Entry(params, Status);
  }

  /** The ordering assignments of buildPostQuery. */
  method AddOrdering(params: PostQueryParams, query0: Record) returns (query: Record)
    ensures query == query0 + Entry(params, Order) + Entry(params, OrderByField)
  {
    query := query0;
    if params.order.Some? { query := query + [("order", Str(params.order.value.Name()))]; }
    if params.orderBy.Some? { query := query + [("orderby", Str(params.orderBy.value.Name()))]; }
  }

  lemma {:induction false} LookupAppend(a: Record, b: Record, key: string)
    ensures Lookup(a + b, key) == if Lookup(a, key).Some? then Lookup(a, key) else Lookup(b, key)
  {
    if a == [] {
      assert a + b == b;
    } else {
      assert (a + b)[0] == a[0];
      assert (a + b)[1..] == a[1..] + b;
      LookupAppend(a[1..], b, key);
    }
  }

  lemma EntryLookup(p: PostQueryParams, k: Param, key: string)
    ensures Lookup(Entry(p, k), key) == if ParamNamed(key) == Some(k) then KeptValue(FieldValue(p, k)) else None
  {
    ParamNamedKey(k);
  }

  /**
   * A key appears in the query exactly when the filter's value for it is
   * truthy (and, for arrays, non-empty), and then with that very value; no
   * key outside the ten is ever written.
   */
  lemma PostQueryLookup(p: PostQueryParams, key: string)
    ensures Lookup(PostQuery(p), key) == KeptValue(ValueAt(p, key))
  {
    var e0, e1, e2, e3, e4 := Entry(p, Page), Entry(p, PerPage), Entry(p, Offset), Entry(p, Search), Entry(p, Author);
    var e5, e6, e7, e8, e9 := Entry(p, Categories), Entry(p, Tags), Entry(p, Status), Entry(p, Order), Entry(p, OrderByField);
    EntryLookup(p, Page, key);
    EntryLookup(p, PerPage, key);
    EntryLookup(p, Offset, key);
    EntryLookup(p, Search, key);
    EntryLookup(p, Author, key);
    EntryLookup(p, Categories, key);
    EntryLookup(p, Tags, key);
    EntryLookup(p, Status, key);
    EntryLookup(p, Order, key);
    EntryLookup(p, OrderByField, key);
    LookupAppend(e0 + e1 + e2 + e3 + e4 + e5 + e6 + e7 + e8, e9, key);
    LookupAppend(e0 + e1 + e2 + e3 + e4 + e5 + e6 + e7, e8, key);
    LookupAppend(e0 + e1 + e2 + e3 + e4 + e5 + e6, e7, key);
    LookupAppend(e0 + e1 + e2 + e3 + e4 + e5, e6, key);
    LookupAppend(e0 + e1 + e2 + e3 + e4, e5, key);
    LookupAppend(e0 + e1 + e2 + e3, e4, key);
    LookupAppend(e0 + e1 + e2, e3, key);
    LookupAppend(e0 + e1, e2, key);
    LookupAppend(e0, e1, key);
  }

  /** Falsy values are dropped: `page: 0`, `search: ""` and `categories: []` never reach the query. */
  lemma PostQueryDropsFalsy(p: PostQueryParams)
    ensures p.page == Some(0) ==> Lookup(PostQuery(p), "page").None?
    ensures p.search == Some("") ==> Lookup(PostQuery(p), "search").None?
    ensures p.categories == Some([]) ==> Lookup(PostQuery(p), "categories").None?
    ensures p.tags == Some([]) ==> Lookup(PostQuery(p), "tags").None?
  {
    PostQueryLookup(p, "page");
    PostQueryLookup(p, "search");
    PostQueryLookup(p, "categories");
    PostQueryLookup(p, "tags");
  }

  /** Every value in the query is truthy, no array in it is empty, and every key names one of the ten fields. */
  lemma PostQueryValuesKept(p: PostQueryParams)
    ensures KeptEntries(PostQuery(p))
  {
    forall k: Param ensures KeptEntries(Entry(p, k)) { ParamNamedKey(k); }
    var q := Entry(p, Page) + Entry(p, PerPage);
    assert KeptEntries(q);
    q := q + Entry(p, Offset);
    assert KeptEntries(q);
    q := q + Entry(p, Search);
    assert KeptEntries(q);
    q := q + Entry(p, Author);
    assert KeptEntries(q);
    q := q + Entry(p, Categories);
    assert KeptEntries(q);
    q := q + Entry(p, Tags);
    assert KeptEntries(q);
    q := q + Entry(p, Status);
    assert KeptEntries(q);
    q := q + Entry(p, Order);
    assert KeptEntries(q);
    q := q + Entry(p, OrderByField);
    assert q == PostQuery(p);
  }

  /** Every entry of `r` holds a kept value under a parameter name. */
  predicate KeptEntries(r: Record) {
    forall i :: 0 <= i < |r| ==> Kept(r[i].1) && ParamNamed(r[i].0).Some?
  }

  function NumAt(r: Record, key: string): Option<int> {
    match Lookup(r, key)
    case Some(Num(n)) => Some(n)
    case _ => None
  }

  function StrAt(r: Record, key: string): Option<string> {
    match Lookup(r, key)
    case Some(Str(s)) => Some(s)
    case _ => None
  }

  function NumsAt(r: Record, key: string): Option<seq<int>> {
    match Lookup(r, key)
    case Some(Arr(items)) => IntsOf(items)
    case _ => None
  }

  /** Reads a filter back from a query record, as passing the record where a filter is expected does. */
  function ParamsOf(r: Record): PostQueryParams {
    PostQueryParams(
      page := NumAt(r, "page"),
      perPage := NumAt(r, "per_page"),
      offset := NumAt(r, "offset"),
      search := StrAt(r, "search"),
      author := NumAt(r, "author"),
      categories := NumsAt(r, "categories"),
      tags := NumsAt(r, "tags"),
      status := StrAt(r, "status"),
      order := match Lookup(r, "order")
               case Some(Str("asc")) => Some(Asc)
               case Some(Str("desc")) => Some(Desc)
               case _ => None,
      orderBy := match Lookup(r, "orderby")
                 case Some(Str("date")) => Some(ByDate)
                 case Some(Str("id")) => Some(ById)
                 case Some(Str("title")) => Some(ByTitle)
                 case Some(Str("slug")) => Some(BySlug)
                 case _ => None)
  }

  /** Reading a query back as a filter yields, field by field, the values the query kept. */
  lemma ParamsOfPostQuery(p: PostQueryParams, k: Param)
    ensures KeptValue(FieldValue(ParamsOf(PostQuery(p)), k)) == KeptValue(FieldValue(p, k))
  {
    ParamNamedKey(k);
    PostQueryLookup(p, k.Key());
    match k
    case Categories => if p.categories.Some? { IntsOfNums(p.categories.value); }
    case Tags => if p.tags.Some? { IntsOfNums(p.tags.value); }
    case _ =>
  }

  /** Reading the query back as a filter and querying again changes nothing. */
  lemma PostQueryIdempotent(p: PostQueryParams)
    ensures PostQuery(ParamsOf(PostQuery(p))) == PostQuery(p)
  {
    var p' := ParamsOf(PostQuery(p));
    forall k: Param ensures Entry(p', k) == Entry(p, k) {
      ParamsOfPostQuery(p, k);
    }
  }

  // ------------------------------------------------------ extractPaginationInfo

  /** Response headers by (already normalised) name. */
  type Headers = map<string, string>

  const TotalHeader := "X-WP-Total"
  const TotalPagesHeader := "X-WP-TotalPages"

  predicate DecimalOrEmpty(s: string) {
    s == "" || JsStrings.IsDecimal(s)
  }

  /** The pagination headers, when present, hold decimal counts. */
  predicate PaginationHeadersWellFormed(h: Headers) {
    && (TotalHeader in h ==> DecimalOrEmpty(h[TotalHeader]))
    && (TotalPagesHeader in h ==> DecimalOrEmpty(h[TotalPagesHeader]))
  }

  type PageHeaders = h: Headers | PaginationHeadersWellFormed(h) witness map[]

  datatype PaginationCounts = PaginationCounts(total: int, totalPages: int, currentPage: int)

  /** `parseInt(headers.get(name) || '0', 10)`. */
  function HeaderCount(h: Headers, name: string): (n: nat)
    requires name in h ==> DecimalOrEmpty(h[name])
    ensures (name !in h || h[name] == "") ==> n == 0
  {
    if name in h && h[name] != "" then JsStrings.ParseDecimal(h[name]) else 0
  }

  /** extractPaginationInfo: the two totals from the headers (0 when missing) and a placeholder page 1. */
  function ExtractPaginationInfo(headers: Headers): (info: PaginationCounts)
    requires PaginationHeadersWellFormed(headers)
    ensures info.currentPage == 1
    ensures info.total >= 0 && info.totalPages >= 0
    ensures TotalHeader !in headers ==> info.total == 0
    ensures TotalPagesHeader !in headers ==> info.totalPages == 0
  {
    PaginationCounts(HeaderCount(headers, TotalHeader), HeaderCount(headers, TotalPagesHeader), 1)
  }

  /**
   * A count the server writes in decimal is read back exactly, whatever
   * other headers the response carries.
   */
  lemma ExtractPaginationInfoReadsCounts(headers: Headers, total: nat, totalPages: nat)
    requires PaginationHeadersWellFormed(headers)
    ensures TotalHeader in headers && headers[TotalHeader] == JsStrings.NatToString(total) ==>
              ExtractPaginationInfo(headers).total == total
    ensures TotalPagesHeader in headers && headers[TotalPagesHeader] == JsStrings.NatToString(totalPages) ==>
              ExtractPaginationInfo(headers).totalPages == totalPages
  {
    JsStrings.ParseNatToString(total);
    JsStrings.ParseNatToString(totalPages);
  }

  /** Pagination headers written from counts are well formed, whatever other headers there are. */
  lemma CountHeadersWellFormed(headers: Headers, total: nat, totalPages: nat)
    requires TotalHeader in headers ==> headers[TotalHeader] == JsStrings.NatToString(total)
    requires TotalPagesHeader in headers ==> headers[TotalPagesHeader] == JsStrings.NatToString(totalPages)
    ensures PaginationHeadersWellFormed(headers)
  {
    JsStrings.NatToStringIsDecimal(total);
    JsStrings.NatToStringIsDecimal(totalPages);
  }

  // ---------------------------------------------------------- extractPlainText

  /** No `<` is followed, anywhere later, by a `>`: nothing tag-shaped is left. */
  predicate NoTagPair(s: string) {
    forall i, j :: 0 <= i < j < |s| && s[i] == '<' ==> s[j] != '>'
  }

  /**
   * `s.replace(/<[^>]*>/g, '')`: from each `<` that has a `>` somewhere
   * after it, everything up to and including the first such `>` is removed.
   */
  function StripTags(s: string): (r: string)
    ensures |r| <= |s|
    decreases |s|
  {
    if s == [] then []
    else if s[0] == '<' && '>' in s[1..] then StripTags(s[JsStrings.IndexOf(s[1..], '>') + 2..])
    else [s[0]] + StripTags(s[1..])
  }

  /** Stripping only removes characters. */
  lemma {:induction false} StripTagsKeeps(s: string, c: char)
    ensures c in StripTags(s) ==> c in s
    decreases |s|
  {
    if s == [] {
    } else if s[0] == '<' && '>' in s[1..] {
      StripTagsKeeps(s[JsStrings.IndexOf(s[1..], '>') + 2..], c);
    } else {
      StripTagsKeeps(s[1..], c);
    }
  }

  /** After stripping, no `<` is followed by a `>`. */
  lemma {:induction false} StripTagsLeavesNoTag(s: string)
    ensures NoTagPair(StripTags(s))
    decreases |s|
  {
    if s == [] {
    } else if s[0] == '<' && '>' in s[1..] {
      StripTagsLeavesNoTag(s[JsStrings.IndexOf(s[1..], '>') + 2..]);
    } else {
      var rest := StripTags(s[1..]);
      StripTagsLeavesNoTag(s[1..]);
      StripTagsKeeps(s[1..], '>');
      var r := [s[0]] + rest;
      forall i, j | 0 <= i < j < |r| && r[i] == '<' ensures r[j] != '>' {
        if i == 0 {
          assert r[j] == rest[j - 1];
        } else {
          assert r[i] == rest[i - 1] && r[j] == rest[j - 1];
        }
      }
    }
  }

  /** Text with nothing tag-shaped in it passes through stripping unchanged, so stripping is idempotent. */
  lemma {:induction false} StripTagsIdentity(s: string)
    requires NoTagPair(s)
    ensures StripTags(s) == s
    decreases |s|
  {
    if s != [] {
      if s[0] == '<' {
        forall k | 0 <= k < |s| - 1 ensures s[1..][k] != '>' {
          assert s[1..][k] == s[k + 1];
        }
      }
      assert NoTagPair(s[1..]) by {
        forall i, j | 0 <= i < j < |s[1..]| && s[1..][i] == '<' ensures s[1..][j] != '>' {
          assert s[i + 1] == '<';
        }
      }
      StripTagsIdentity(s[1..]);
    }
  }

  /** Text before the first `<` is kept as it is. */
  lemma {:induction false} StripTagsKeepsPrefix(u: string, v: string)
    requires '<' !in u
    ensures StripTags(u + v) == u + StripTags(v)
    decreases |u|
  {
    if u != [] {
      assert (u + v)[0] == u[0] && (u + v)[1..] == u[1..] + v;
      assert '<' !in u[1..] by {
        forall k | 0 <= k < |u[1..]| ensures u[1..][k] != '<' { assert u[1..][k] == u[k + 1]; }
      }
      StripTagsKeepsPrefix(u[1..], v);
    } else {
      assert u + v == v;
    }
  }

  /**
   * A `<` with a later `>` is removed together with everything up to the
   * first such `>`. With `StripTagsKeepsPrefix` and `StripTagsIdentity`
   * (a `<` with no `>` after it is kept), this fixes the result on every
   * text.
   */
  lemma StripTagsDropsTag(w: string, v: string)
    requires '>' !in w
    ensures StripTags("<" + w + ">" + v) == StripTags(v)
  {
    var s := "<" + w + ">" + v;
    assert s[1..] == w + ">" + v;
    assert s[1..][|w|] == '>';
    assert s[1..][..|w|] == w;
    JsStrings.IndexOfFirst(s[1..], '>', |w|);
    assert s[|w| + 2..] == v;
  }

  lemma StripTagsIdempotent(s: string)
    ensures StripTags(StripTags(s)) == StripTags(s)
  {
    StripTagsLeavesNoTag(s);
    StripTagsIdentity(StripTags(s));
  }

  /**
   * The five entity replacements, `&amp;` first. Every replacement is
   * shorter than its entity, so decoding never lengthens the text, and text
   * without an ampersand is left as it is.
   */
  function DecodeEntities(s: string): (r: string)
    ensures |r| <= |s|
    ensures '&' !in s ==> r == s
  {
    var a := JsStrings.ReplaceAll(s, "&amp;", "&");
    var b := JsStrings.ReplaceAll(a, "&lt;", "<");
    var c := JsStrings.ReplaceAll(b, "&gt;", ">");
    var d := JsStrings.ReplaceAll(c, "&quot;", "\"");
    JsStrings.ReplaceAllShortens(s, "&amp;", "&");
    JsStrings.ReplaceAllShortens(a, "&lt;", "<");
    JsStrings.ReplaceAllShortens(b, "&gt;", ">");
    JsStrings.ReplaceAllShortens(c, "&quot;", "\"");
    JsStrings.ReplaceAllShortens(d, "&#039;", "'");
    JsStrings.ReplaceAllWithoutFirst(s, "&amp;", "&");
    JsStrings.ReplaceAllWithoutFirst(a, "&lt;", "<");
    JsStrings.ReplaceAllWithoutFirst(b, "&gt;", ">");
    JsStrings.ReplaceAllWithoutFirst(c, "&quot;", "\"");
    JsStrings.ReplaceAllWithoutFirst(d, "&#039;", "'");
    JsStrings.ReplaceAll(d, "&#039;", "'")
  }

  /** Because `&amp;` is decoded first, an escaped entity is decoded twice. */
  lemma DecodeEntitiesTwice()
    ensures DecodeEntities("&amp;lt;") == "<"
  {
    var s := "&amp;lt;";
    assert "&amp;" <= s;
    assert s[5..] == "lt;";
    assert JsStrings.ReplaceAll("lt;", "&amp;", "&") == "lt;" by {
      JsStrings.ReplaceAllAbsent("lt;", "&amp;", "&");
    }
    var a := JsStrings.ReplaceAll(s, "&amp;", "&");
    assert a == "&lt;";
    assert "&lt;" <= a && a[4..] == [];
    var b := JsStrings.ReplaceAll(a, "&lt;", "<");
    assert b == "<";
    JsStrings.ReplaceAllAbsent(b, "&gt;", ">");
    JsStrings.ReplaceAllAbsent(b, "&quot;", "\"");
    JsStrings.ReplaceAllAbsent(b, "&#039;", "'");
  }

  /** The text of some HTML before any truncation: tags stripped, entities decoded. */
  function DecodedText(html: string): (r: string)
    ensures |r| <= |html|
  {
    DecodeEntities(StripTags(html))
  }

  /**
   * extractPlainText: truncation happens only for a truthy `maxLength` the
   * decoded text exceeds, and gives the trimmed first `maxLength` characters
   * followed by "..."; otherwise the result is the trimmed decoded text.
   */
  function ExtractPlainText(html: string, maxLength: Option<int>): (r: string)
    ensures var decoded := DecodedText(html);
            if TruthyInt(maxLength) && |decoded| > maxLength.value then
              r == JsStrings.Trim(decoded[..JsStrings.Clamp(maxLength.value, |decoded|)]) + "..."
            else r == JsStrings.Trim(decoded)
  {
    var decoded := DecodedText(html);
    if TruthyInt(maxLength) && |decoded| > maxLength.value then
      JsStrings.Trim(JsStrings.Substring(decoded, 0, maxLength.value)) + "..."
    else
      JsStrings.Trim(decoded)
  }

  /** With a positive limit the result is at most three characters longer than the limit. */
  lemma ExtractPlainTextBounded(html: string, maxLength: int)
    requires maxLength > 0
    ensures |ExtractPlainText(html, Some(maxLength))| <= maxLength + 3
  {
  }

  /** Without truncation the result has no whitespace at either end and is no longer than the HTML. */
  lemma ExtractPlainTextUntruncated(html: string)
    ensures var r := ExtractPlainText(html, None);
            && (r == [] || (!JsStrings.IsWhitespace(r[0]) && !JsStrings.IsWhitespace(r[|r| - 1])))
            && |r| <= |html|
  {
    var decoded := DecodedText(html);
    assert ExtractPlainText(html, None) == JsStrings.Trim(decoded) by {
      assert !TruthyInt(None);
    }
  }

  /**
   * Decoding runs after stripping, so escaped markup comes out as a tag:
   * the plain text of `&lt;b&gt;` is `<b>`, which has a `<` before a `>`.
   */
  lemma DecodedEntitiesFormTags()
    ensures ExtractPlainText("&lt;b&gt;", None) == "<b>"
    ensures !NoTagPair(ExtractPlainText("&lt;b&gt;", None))
  {
    PlainTextOfEscapedBold();
    var r := "<b>";
    assert r[0] == '<' && r[2] == '>';
  }

  lemma PlainTextOfEscapedBold()
    ensures ExtractPlainText("&lt;b&gt;", None) == "<b>"
  {
    DecodedEscapedBold();
    assert !TruthyInt(None);
    JsStrings.TrimTrimmed("<b>");
  }

  /** `&lt;b&gt;` has no tag to strip, and its entities decode to `<b>`. */
  lemma DecodedEscapedBold()
    ensures DecodedText("&lt;b&gt;") == "<b>"
  {
    var html := "&lt;b&gt;";
    assert '<' !in html;
    StripTagsIdentity(html);
    DecodeEscapedBold();
  }

  /** The five replacements turn `&lt;b&gt;` into `<b>`. */
  lemma DecodeEscapedBold()
    ensures DecodeEntities("&lt;b&gt;") == "<b>"
  {
    AmpLeavesEscapedBold();
    LtInEscapedBold();
    GtInEscapedBold();
    JsStrings.ReplaceAllWithoutFirst("<b>", "&quot;", "\"");
    JsStrings.ReplaceAllWithoutFirst("<b>", "&#039;", "'");
  }

  lemma AmpLeavesEscapedBold()
    ensures JsStrings.ReplaceAll("&lt;b&gt;", "&amp;", "&") == "&lt;b&gt;"
  {
    var html, gt := "&lt;b&gt;", "&gt;";
    assert html[1] == 'l' && !("&amp;" <= html);
    assert html[1..] == "lt;b" + gt;
    JsStrings.ReplaceAllSkips("lt;b", gt, "&amp;", "&");
    AmpLeavesGt();
  }

  lemma AmpLeavesGt()
    ensures JsStrings.ReplaceAll("&gt;", "&amp;", "&") == "&gt;"
  {
    var gt := "&gt;";
    assert gt[1] == 'g' && !("&amp;" <= gt);
    assert gt[1..] == "gt;";
    JsStrings.ReplaceAllWithoutFirst("gt;", "&amp;", "&");
  }

  lemma LtInEscapedBold()
    ensures JsStrings.ReplaceAll("&lt;b&gt;", "&lt;", "<") == "<b&gt;"
  {
    var html, gt := "&lt;b&gt;", "&gt;";
    assert "&lt;" <= html && html[4..] == "b" + gt;
    JsStrings.ReplaceAllSkips("b", gt, "&lt;", "<");
    assert gt[1] == 'g' && !("&lt;" <= gt);
    assert gt[1..] == "gt;";
    JsStrings.ReplaceAllWithoutFirst("gt;", "&lt;", "<");
  }

  lemma GtInEscapedBold()
    ensures JsStrings.ReplaceAll("<b&gt;", "&gt;", ">") == "<b>"
  {
    var gt := "&gt;";
    assert "<b&gt;" == "<b" + gt;
    JsStrings.ReplaceAllSkips("<b", gt, "&gt;", ">");
    assert "&gt;" <= gt && gt[4..] == [];
  }
}

=== FILE: data_transforms.dfy ===
/**
 * Transformations applied to posts before display: the display record with
 * reading time and term names, the shape check on untyped data, the status
 * filter, sorting by date, grouping by category and the excerpt rule.
 */
module DataTransforms {
  import opened Wrappers
  import opened JsValues
  import opened WpTypes
  import JsStrings
  import ApiUtils

  // --------------------------------------------------- transformPostForDisplay

  /** A simplified post together with the fields computed for display. */
  datatype DisplayPost = DisplayPost(
    base: SimplifiedPost,
    formattedDate: string,
    plainTextExcerpt: string,
    readingTime: int,
    categoryNames: seq<string>,
    tagNames: seq<string>)

  /** `text.split(/\s+/).length`. */
  function WordCount(text: string): (n: nat)
    ensures n >= 1
  {
    |JsStrings.SplitOnWhitespace(text)|
  }

  /**
   * The words of the plain text of some HTML: unless the text is empty, every
   * whitespace-separated piece is a non-empty word, and together the pieces
   * hold all of its non-whitespace characters, in order.
   */
  lemma WordCountCountsWords(html: string)
    ensures var text := ApiUtils.ExtractPlainText(html, None);
            var pieces := JsStrings.SplitOnWhitespace(text);
            && WordCount(text) == |pieces|
            && (text != [] ==> forall i :: 0 <= i < |pieces| ==> pieces[i] != [])
            && JsStrings.Concat(pieces) == JsStrings.RemoveWhitespace(text)
  {
    var text := ApiUtils.ExtractPlainText(html, None);
    ApiUtils.ExtractPlainTextUntruncated(html);
    if text != [] {
      JsStrings.SplitTrimmedPieces(text);
    }
    JsStrings.SplitKeepsText(text);
  }

  /**
   * The count goes word by word: a single word counts 1, and a word followed
   * by a run of whitespace adds 1 to the count of the text after the run.
   */
  lemma WordCountByWords(u: string, w: string, v: string)
    requires JsStrings.NoWhitespace(u)
    ensures WordCount(u) == 1
    ensures w != [] && JsStrings.AllWhitespace(w) && (v == [] || !JsStrings.IsWhitespace(v[0])) ==>
              WordCount(u + w + v) == 1 + WordCount(v)
  {
    JsStrings.SplitOneWord(u);
    if w != [] && JsStrings.AllWhitespace(w) && (v == [] || !JsStrings.IsWhitespace(v[0])) {
      JsStrings.SplitAfterWord(u, w, v);
    }
  }

  /** `Math.ceil(words / 200)`: the least number of minutes that covers the words at 200 a minute. */
  function ReadingMinutes(words: nat): (r: nat)
    ensures words == 0 ==> r == 0
    ensures words > 0 ==> (r - 1) * 200 < words <= r * 200
  {
    (words + 199) / 200
  }

  /** The names of the terms whose id is among `ids`, in the order of `terms`. */
  function TermNames(terms: seq<Term>, ids: seq<int>): (r: seq<string>)
    ensures |r| <= |terms|
  {
    if terms == [] then []
    else (if terms[0].id in ids then [terms[0].name] else []) + TermNames(terms[1..], ids)
  }

  /** A name is listed exactly when some supplied term with that name has one of the ids. */
  lemma {:induction false} TermNamesMembers(terms: seq<Term>, ids: seq<int>, name: string)
    ensures name in TermNames(terms, ids) <==> exists t :: t in terms && t.id in ids && t.name == name
  {
    if terms != [] {
      TermNamesMembers(terms[1..], ids, name);
      assert forall t :: t in terms <==> t == terms[0] || t in terms[1..];
    }
  }

  /** Names keep the order of the supplied terms: listing a concatenation lists each part in turn. */
  lemma {:induction false} TermNamesAppend(a: seq<Term>, b: seq<Term>, ids: seq<int>)
    ensures TermNames(a + b, ids) == TermNames(a, ids) + TermNames(b, ids)
  {
    if a == [] {
      assert a + b == b;
    } else {
      var head := if a[0].id in ids then [a[0].name] else [];
      assert (a + b)[0] == a[0] && (a + b)[1..] == a[1..] + b;
      assert TermNames(a + b, ids) == head + TermNames(a[1..] + b, ids);
      TermNamesAppend(a[1..], b, ids);
      assert TermNames(a, ids) == head + TermNames(a[1..], ids);
    }
  }

  /**
   * The display record of `post`. `formatDate` stands for the locale date
   * formatting, which is not part of this model.
   */
  function TransformPostForDisplay(post: Post, categories: seq<Category>, tags: seq<Tag>, formatDate: string -> string): (r: DisplayPost)
    ensures r.base.id == post.id && r.base.slug == post.slug && r.base.date == post.date
    ensures r.base.title == post.title.rendered && r.base.content == post.content.rendered
    ensures r.base.excerpt == post.excerpt.rendered && r.base.author == post.author
    ensures r.base.categories == post.categories && r.base.tags == post.tags
    ensures r.base.featuredImage == None
    ensures r.formattedDate == formatDate(post.date)
    ensures r.plainTextExcerpt == ApiUtils.ExtractPlainText(post.excerpt.rendered, Some(160))
    ensures r.readingTime >= 1
    ensures var words := WordCount(ApiUtils.ExtractPlainText(post.content.rendered, None));
            (r.readingTime - 1) * 200 < words <= r.readingTime * 200
    ensures r.categoryNames == TermNames(categories, post.categories)
    ensures r.tagNames == TermNames(tags, post.tags)
  {
    var words := WordCount(ApiUtils.ExtractPlainText(post.content.rendered, None));
    DisplayPost(
      SimplifiedPost(post.id, post.title.rendered, post.content.rendered, post.excerpt.rendered,
                     post.slug, post.date, post.author, None, post.categories, post.tags),
      formatDate(post.date),
      ApiUtils.ExtractPlainText(post.excerpt.rendered, Some(160)),
      ReadingMinutes(words),
      TermNames(categories, post.categories),
      TermNames(tags, post.tags))
  }

  /** The display excerpt is at most 163 characters: 160 and an ellipsis. */
  lemma DisplayExcerptBounded(post: Post, categories: seq<Category>, tags: seq<Tag>, formatDate: string -> string)
    ensures |TransformPostForDisplay(post, categories, tags, formatDate).plainTextExcerpt| <= 163
  {
    ApiUtils.ExtractPlainTextBounded(post.excerpt.rendered, 160);
  }

  // -------------------------------------------------------------- validatePost

  /** `v.key`, with `undefined` for a missing property or a non-object. */
  function Prop(v: JsValue, key: string): JsValue {
    Get(v, key).GetOr(Undefined)
  }

  /**
   * The truthiness of the `&&` chain in validatePost: a truthy value whose
   * `id` is a number, whose `slug` is a string, and whose `title` and
   * `content` are truthy with a string `rendered`.
   */
  predicate ValidatePost(v: JsValue)
    ensures ValidatePost(v) ==> v.Obj?
  {
    && Truthy(v)
    && Prop(v, "id").Num?
    && Prop(v, "slug").Str?
    && Truthy(Prop(v, "title"))
    && Prop(Prop(v, "title"), "rendered").Str?
    && Truthy(Prop(v, "content"))
    && Prop(Prop(v, "content"), "rendered").Str?
  }

  /** A `{ rendered }` field with string text. */
  predicate HasRenderedText(fields: map<string, JsValue>, key: string) {
    key in fields && fields[key].Obj? && "rendered" in fields[key].fields && fields[key].fields["rendered"].Str?
  }

  /** Only objects pass, and exactly those with a numeric id, a string slug and string title and content text. */
  lemma ValidatePostShape(v: JsValue)
    ensures ValidatePost(v) <==>
              && v.Obj?
              && "id" in v.fields && v.fields["id"].Num?
              && "slug" in v.fields && v.fields["slug"].Str?
              && HasRenderedText(v.fields, "title")
              && HasRenderedText(v.fields, "content")
  {
  }

  /** The JSON object the REST API sends for a post, reduced to the modelled fields. */
  function PostJson(p: Post): (v: JsValue)
    ensures v.Obj? && "id" in v.fields && "excerpt" in v.fields
  {
    Obj(map[
      "id" := Num(p.id),
      "date" := Str(p.date),
      "slug" := Str(p.slug),
      "status" := Str(p.status),
      "title" := Obj(map["rendered" := Str(p.title.rendered)]),
      "content" := Obj(map["rendered" := Str(p.content.rendered)]),
      "excerpt" := Obj(map["rendered" := Str(p.excerpt.rendered)]),
      "author" := Num(p.author),
      "featured_media" := Num(p.featuredMedia),
      "categories" := Arr(Nums(p.categories)),
      "tags" := Arr(Nums(p.tags))])
  }

  /** Every post the API sends passes the check. */
  lemma PostJsonValid(p: Post)
    ensures ValidatePost(PostJson(p))
  {
    var f := PostJson(p).fields;
    assert f["title"] == Obj(map["rendered" := Str(p.title.rendered)]);
    assert f["content"] == Obj(map["rendered" := Str(p.content.rendered)]);
  }

  /** The excerpt and the status are not checked: replacing them never changes the verdict. */
  lemma ValidatePostIgnoresExcerptAndStatus(fields: map<string, JsValue>, excerpt: JsValue, status: JsValue)
    ensures ValidatePost(Obj(fields["excerpt" := excerpt]["status" := status])) == ValidatePost(Obj(fields))
  {
    var g := fields["excerpt" := excerpt]["status" := status];
    assert forall k :: k in ["id", "slug", "title", "content"] ==> (k in g <==> k in fields) && (k in g ==> g[k] == fields[k]);
  }

  // ------------------------------------------------------ filterPublishedPosts

  /** The posts whose status is "publish", in their original order. */
  function FilterPublishedPosts(posts: seq<Post>): (r: seq<Post>)
    ensures |r| <= |posts|
    ensures forall i :: 0 <= i < |r| ==> r[i].status == "publish"
  {
    if posts == [] then []
    else (if posts[0].status == "publish" then [posts[0]] else []) + FilterPublishedPosts(posts[1..])
  }

  /** A post is kept exactly when it is in the input and published, as often as it occurs there. */
  lemma {:induction false} FilterPublishedCounts(posts: seq<Post>, p: Post)
    ensures multiset(FilterPublishedPosts(posts))[p] == if p.status == "publish" then multiset(posts)[p] else 0
  {
    if posts != [] {
      FilterPublishedCounts(posts[1..], p);
      assert posts == [posts[0]] + posts[1..];
    }
  }

  /** Filtering keeps the order: filtering a concatenation filters each part in turn. */
  lemma {:induction false} FilterPublishedAppend(a: seq<Post>, b: seq<Post>)
    ensures FilterPublishedPosts(a + b) == FilterPublishedPosts(a) + FilterPublishedPosts(b)
  {
    if a == [] {
      assert a + b == b;
    } else {
      assert (a + b)[1..] == a[1..] + b;
      FilterPublishedAppend(a[1..], b);
    }
  }

  // ---------------------------------------------------------- sortPostsByDate

  predicate SortedBy(s: seq<Post>, key: Post -> int) {
    forall i, j :: 0 <= i < j < |s| ==> key(s[i]) <= key(s[j])
  }

  /** Inserts `x` before the first element whose key is not smaller than its own. */
  function Insert(x: Post, s: seq<Post>, key: Post -> int): (r: seq<Post>)
    ensures multiset(r) == multiset(s) + multiset{x}
    ensures |r| == |s| + 1 && (r[0] == x || (s != [] && r[0] == s[0]))
  {
    if s == [] || key(x) <= key(s[0]) then [x] + s
    else
      var rest := Insert(x, s[1..], key);
      assert s == [s[0]] + s[1..];
      [s[0]] + rest
  }

  /** Inserting into a sorted sequence keeps it sorted. */
  lemma {:induction false} InsertSorted(x: Post, s: seq<Post>, key: Post -> int)
    requires SortedBy(s, key)
    ensures SortedBy(Insert(x, s, key), key)
  {
    if s != [] && key(x) > key(s[0]) {
      var rest := Insert(x, s[1..], key);
      InsertSorted(x, s[1..], key);
      assert key(s[0]) <= key(rest[0]);
      var r := [s[0]] + rest;
      forall i, j | 0 <= i < j < |r| ensures key(r[i]) <= key(r[j]) {
        if i == 0 {
          assert r[j] == rest[j - 1];
        } else {
          assert r[i] == rest[i - 1] && r[j] == rest[j - 1];
        }
      }
    }
  }

  /** A stable insertion sort by `key`. */
  function InsertionSort(s: seq<Post>, key: Post -> int): (r: seq<Post>)
    ensures multiset(r) == multiset(s)
    ensures SortedBy(r, key)
  {
    if s == [] then []
    else
      assert s == [s[0]] + s[1..];
      var sorted := InsertionSort(s[1..], key);
      InsertSorted(s[0], sorted, key);
      Insert(s[0], sorted, key)
  }

  /** The elements of `s` whose key is `k`, in order. */
  function WithKey(s: seq<Post>, key: Post -> int, k: int): seq<Post> {
    if s == [] then []
    else (if key(s[0]) == k then [s[0]] else []) + WithKey(s[1..], key, k)
  }

  /** Insertion passes over only posts with smaller keys, so `x` lands before every post sharing its key. */
  lemma {:induction false} InsertStable(x: Post, s: seq<Post>, key: Post -> int, k: int)
    ensures WithKey(Insert(x, s, key), key, k) == (if key(x) == k then [x] else []) + WithKey(s, key, k)
  {
    if s == [] || key(x) <= key(s[0]) {
      var r := [x] + s;
      assert r[0] == x && r[1..] == s;
    } else {
      InsertStable(x, s[1..], key, k);
      PassOver(s[0], x, s[1..], Insert(x, s[1..], key), key, k);
    }
  }

  /** One step of insertion past `y`, whose key is smaller than that of `x`. */
  lemma PassOver(y: Post, x: Post, tail: seq<Post>, rest: seq<Post>, key: Post -> int, k: int)
    requires key(y) < key(x)
    requires WithKey(rest, key, k) == (if key(x) == k then [x] else []) + WithKey(tail, key, k)
    ensures WithKey([y] + rest, key, k) == (if key(x) == k then [x] else []) + WithKey([y] + tail, key, k)
  {
    assert ([y] + rest)[0] == y && ([y] + rest)[1..] == rest;
    assert ([y] + tail)[0] == y && ([y] + tail)[1..] == tail;
  }

  /** Posts with equal keys keep their relative order. */
  lemma {:induction false} InsertionSortStable(s: seq<Post>, key: Post -> int, k: int)
    ensures WithKey(InsertionSort(s, key), key, k) == WithKey(s, key, k)
  {
    if s != [] {
      InsertionSortStable(s[1..], key, k);
      InsertStable(s[0], InsertionSort(s[1..], key), key, k);
    }
  }

  /** The sort key: the timestamp for ascending order, its negation for descending order. */
  function DateKey(order: SortOrder, timeOf: string -> int): Post -> int {
    (p: Post) => if order == Desc then -timeOf(p.date) else timeOf(p.date)
  }

  /**
   * A sorted copy of `posts`, newest first unless ascending order is asked
   * for; posts with equal timestamps keep their order. `timeOf` stands for
   * the date parsing, which is not part of this model.
   */
  function SortPostsByDate(posts: seq<Post>, order: Option<SortOrder>, timeOf: string -> int): (r: seq<Post>)
    ensures multiset(r) == multiset(posts) && |r| == |posts|
    ensures order.GetOr(Desc) == Desc ==>
              forall i, j :: 0 <= i < j < |r| ==> timeOf(r[i].date) >= timeOf(r[j].date)
    ensures order == Some(Asc) ==>
              forall i, j :: 0 <= i < j < |r| ==> timeOf(r[i].date) <= timeOf(r[j].date)
  {
    var key := DateKey(order.GetOr(Desc), timeOf);
    var r := InsertionSort(posts, key);
    assert |r| == |multiset(r)| == |multiset(posts)| == |posts|;
    r
  }

  /** Sorting is stable: the posts that share a timestamp keep their input order. */
  lemma SortPostsByDateStable(posts: seq<Post>, order: Option<SortOrder>, timeOf: string -> int, k: int)
    ensures var key := DateKey(order.GetOr(Desc), timeOf);
            WithKey(SortPostsByDate(posts, order, timeOf), key, k) == WithKey(posts, key, k)
  {
    InsertionSortStable(posts, DateKey(order.GetOr(Desc), timeOf), k);
  }

  // ---------------------------------------------------- groupPostsByCategory

  /** `posts.filter(post => post.categories.includes(id))`. */
  function PostsInCategory(posts: seq<Post>, id: int): (r: seq<Post>)
    ensures |r| <= |posts|
    ensures forall i :: 0 <= i < |r| ==> id in r[i].categories
  {
    if posts == [] then []
    else (if id in posts[0].categories then [posts[0]] else []) + PostsInCategory(posts[1..], id)
  }

  /** A post is listed under a category exactly when it is in the input and carries the id, as often as it occurs. */
  lemma {:induction false} PostsInCategoryCounts(posts: seq<Post>, id: int, p: Post)
    ensures multiset(PostsInCategory(posts, id))[p] == if id in p.categories then multiset(posts)[p] else 0
  {
    if posts != [] {
      var head := if id in posts[0].categories then [posts[0]] else [];
      PostsInCategoryCounts(posts[1..], id, p);
      assert posts == [posts[0]] + posts[1..];
      assert PostsInCategory(posts, id) == head + PostsInCategory(posts[1..], id);
      assert multiset(PostsInCategory(posts, id)) == multiset(head) + multiset(PostsInCategory(posts[1..], id));
    }
  }

  /** Listing keeps the input order. */
  lemma {:induction false} PostsInCategoryAppend(a: seq<Post>, b: seq<Post>, id: int)
    ensures PostsInCategory(a + b, id) == PostsInCategory(a, id) + PostsInCategory(b, id)
  {
    if a == [] {
      assert a + b == b;
    } else {
      assert (a + b)[1..] == a[1..] + b;
      PostsInCategoryAppend(a[1..], b, id);
    }
  }

  /** The grouping after the categories of `cats` have been visited in order. */
  function Grouped(posts: seq<Post>, cats: seq<Category>): (grouped: map<string, seq<Post>>)
    ensures forall name :: name in grouped ==> exists i :: 0 <= i < |cats| && cats[i].name == name
    ensures cats != [] ==> cats[|cats| - 1].name in grouped && grouped[cats[|cats| - 1].name] == PostsInCategory(posts, cats[|cats| - 1].id)
  {
    if cats == [] then map[]
    else
      var last := cats[|cats| - 1];
      Grouped(posts, cats[..|cats| - 1])[last.name := PostsInCategory(posts, last.id)]
  }

  /** One key per category name. */
  lemma {:induction false} GroupedKeys(posts: seq<Post>, cats: seq<Category>)
    ensures Grouped(posts, cats).Keys == set c | c in cats :: c.name
  {
    if cats != [] {
      var init, last := cats[..|cats| - 1], cats[|cats| - 1];
      GroupedKeys(posts, init);
      assert cats == init + [last];
      assert forall c :: c in cats <==> c in init || c == last;
    }
  }

  /** Under each name, the posts of the last category bearing it. */
  lemma {:induction false} GroupedValues(posts: seq<Post>, cats: seq<Category>, i: int)
    requires 0 <= i < |cats|
    requires forall j :: i < j < |cats| ==> cats[j].name != cats[i].name
    ensures cats[i].name in Grouped(posts, cats)
    ensures Grouped(posts, cats)[cats[i].name] == PostsInCategory(posts, cats[i].id)
  {
    if i < |cats| - 1 {
      var init := cats[..|cats| - 1];
      assert cats[i] == init[i];
      GroupedValues(posts, init, i);
    }
  }

  /** groupPostsByCategory: visits the categories in order, each overwriting the entry for its name. */
  method GroupPostsByCategory(posts: seq<Post>, categories: seq<Category>) returns (grouped: map<string, seq<Post>>)
    ensures grouped == Grouped(posts, categories)
    ensures grouped.Keys == set c | c in categories :: c.name
    ensures forall i :: 0 <= i < |categories| && (forall j :: i < j < |categories| ==> categories[j].name != categories[i].name) ==>
              grouped[categories[i].name] == PostsInCategory(posts, categories[i].id)
  {
    grouped := map[];
    var i := 0;
    while i < |categories|
      invariant 0 <= i <= |categories|
      invariant grouped == Grouped(posts, categories[..i])
    {
      var category := categories[i];
      grouped := grouped[category.name := PostsInCategory(posts, category.id)];
      i := i + 1;
      assert categories[..i][..i - 1] == categories[..i - 1];
    }
    assert categories[..i] == categories;
    GroupedKeys(posts, categories);
    forall k | 0 <= k < |categories| && (forall j :: k < j < |categories| ==> categories[j].name != categories[k].name)
      ensures grouped[categories[k].name] == PostsInCategory(posts, categories[k].id)
    {
      GroupedValues(posts, categories, k);
    }
  }

  // ------------------------------------------------------------ createExcerpt

  /**
   * createExcerpt: the plain text when it fits in `maxLength` (default 160);
   * otherwise its first `maxLength` characters, cut back to the last space
   * when that space lies beyond four fifths of `maxLength`, then "...".
   */
  function CreateExcerpt(content: string, maxLength: Option<int>): (r: string)
    ensures var plain := ApiUtils.ExtractPlainText(content, None);
            |plain| <= maxLength.GetOr(160) ==> r == plain
  {
    Excerpt(ApiUtils.ExtractPlainText(content, None), maxLength.GetOr(160))
  }

  /** The excerpt rule applied to the plain text `plain` with limit `m`. */
  function Excerpt(plain: string, m: int): (r: string)
    ensures |plain| <= m ==> r == plain
    ensures |plain| > m ==> |r| >= 3 && r[|r| - 3..] == "..."
  {
    if |plain| <= m then plain
    else
      var truncated := JsStrings.Substring(plain, 0, m);
      var lastSpace := JsStrings.LastIndexOf(truncated, ' ');
      var cut := if 5 * lastSpace > 4 * m then JsStrings.Substring(truncated, 0, lastSpace) else truncated;
      EndsWithDots(cut);
      cut + "..."
  }

  lemma EndsWithDots(cut: string)
    ensures |cut + "..."| >= 3 && (cut + "...")[|cut + "..."| - 3..] == "..."
  {
    assert (cut + "...")[|cut|..] == "...";
  }

  /** A text that does not fit is cut by the excerpt rule. */
  lemma ExcerptCut(plain: string, m: int)
    requires |plain| > m
    ensures ExcerptRule(plain, m, Excerpt(plain, m))
  {
    ExcerptShape(plain, m);
    var limit := JsStrings.Clamp(m, |plain|);
    var truncated := plain[..limit];
    var lastSpace := JsStrings.LastIndexOf(truncated, ' ');
    if lastSpace >= 0 {
      CutBeforeLimit(plain, limit, truncated, lastSpace);
    }
    forall j | 0 <= j < limit && plain[j] == ' ' ensures j <= lastSpace {
      NoLaterSpace(truncated, lastSpace, j);
    }
    CutProperties(plain, m, Excerpt(plain, m), limit, lastSpace);
  }

  /**
   * The excerpt rule for a text that does not fit: `r` is a prefix of at
   * most `m` characters (`limit`) and "...". The prefix stops short of
   * `limit` only at a space beyond four fifths of `m` with no later space
   * within the limit, and it is the full `limit` characters only when no
   * space lies beyond four fifths.
   */
  predicate ExcerptRule(plain: string, m: int, r: string) {
    var limit := JsStrings.Clamp(m, |plain|);
    && |r| >= 3 && r[|r| - 3..] == "..."
    && var k := |r| - 3;
    && k <= limit && r[..k] == plain[..k]
    && (k < limit ==> plain[k] == ' ' && 5 * k > 4 * m && ' ' !in plain[k + 1..limit])
    && (k == limit ==> forall j :: 0 <= j < limit && plain[j] == ' ' ==> 5 * j <= 4 * m)
  }

  lemma CutProperties(plain: string, m: int, r: string, limit: nat, lastSpace: int)
    requires |plain| > m && limit == JsStrings.Clamp(m, |plain|)
    requires -1 <= lastSpace < limit
    requires lastSpace >= 0 ==> plain[lastSpace] == ' ' && ' ' !in plain[lastSpace + 1..limit]
    requires forall j :: 0 <= j < limit && plain[j] == ' ' ==> j <= lastSpace
    requires r == plain[..if 5 * lastSpace > 4 * m && lastSpace >= 0 then lastSpace else limit] + "..."
    ensures ExcerptRule(plain, m, r)
  {
    var k := if 5 * lastSpace > 4 * m && lastSpace >= 0 then lastSpace else limit;
    assert |r| - 3 == k && r[..k] == plain[..k] && r[k..] == "...";
  }

  lemma CutBeforeLimit(plain: string, limit: nat, truncated: string, lastSpace: int)
    requires limit <= |plain| && truncated == plain[..limit]
    requires lastSpace == JsStrings.LastIndexOf(truncated, ' ') && lastSpace >= 0
    ensures plain[lastSpace] == ' ' && ' ' !in plain[lastSpace + 1..limit]
  {
    assert truncated[lastSpace + 1..] == plain[lastSpace + 1..limit];
  }

  /** A space in `s` lies at or before the last one. */
  lemma NoLaterSpace(s: string, lastSpace: int, j: int)
    requires lastSpace == JsStrings.LastIndexOf(s, ' ')
    requires 0 <= j < |s| && s[j] == ' '
    ensures 0 <= j <= lastSpace
  {
    assert s[j] in s;
  }

  /** The excerpt of a text that does not fit is the prefix up to the chosen cut, and "...". */
  lemma ExcerptShape(plain: string, m: int)
    requires |plain| > m
    ensures var limit := JsStrings.Clamp(m, |plain|);
            var lastSpace := JsStrings.LastIndexOf(plain[..limit], ' ');
            Excerpt(plain, m) == plain[..if 5 * lastSpace > 4 * m && lastSpace >= 0 then lastSpace else limit] + "..."
  {
    var limit := JsStrings.Clamp(m, |plain|);
    var truncated := JsStrings.Substring(plain, 0, m);
    assert truncated == plain[..limit];
    var lastSpace := JsStrings.LastIndexOf(truncated, ' ');
    if 5 * lastSpace > 4 * m {
      var prefix := JsStrings.Substring(truncated, 0, lastSpace);
      if lastSpace >= 0 {
        assert prefix == truncated[..lastSpace] == plain[..lastSpace];
      } else {
        assert limit == 0;
        assert prefix == [];
      }
    }
  }

  /** createExcerpt cuts a text that does not fit by the excerpt rule. */
  lemma CreateExcerptCut(content: string, maxLength: Option<int>)
    ensures var m := maxLength.GetOr(160);
            var plain := ApiUtils.ExtractPlainText(content, None);
            var r := CreateExcerpt(content, maxLength);
            |plain| > m ==> ExcerptRule(plain, m, r)
  {
    var m := maxLength.GetOr(160);
    var plain := ApiUtils.ExtractPlainText(content, None);
    if |plain| > m {
      ExcerptCut(plain, m);
    }
  }

  /** An excerpt is never more than three characters longer than a non-negative limit. */
  lemma CreateExcerptBounded(content: string, maxLength: int)
    requires maxLength >= 0
    ensures |CreateExcerpt(content, Some(maxLength))| <= maxLength + 3
  {
    CreateExcerptCut(content, Some(maxLength));
  }
}

=== FILE: js_strings.dfy ===
/**
 * The JavaScript string built-ins the client relies on, over sequences of
 * characters: `trim`, `replace` with a global literal pattern, `substring`,
 * `lastIndexOf`, `includes`, `split(/\s+/)`, `join`, number-to-string and
 * base-10 `parseInt`.
 */
module JsStrings {

  /** The characters `trim` removes and `\s` matches: WhiteSpace and LineTerminator. */
  predicate IsWhitespace(c: char) {
    || c == '\t' || c == '\n' || c == '\U{000B}' || c == '\U{000C}' || c == '\r'
    || c == ' ' || c == '\U{00A0}' || c == '\U{1680}'
    || ('\U{2000}' <= c <= '\U{200A}')
    || c == '\U{2028}' || c == '\U{2029}' || c == '\U{202F}' || c == '\U{205F}'
    || c == '\U{3000}' || c == '\U{FEFF}'
  }

  predicate AllWhitespace(s: string) {
    forall i :: 0 <= i < |s| ==> IsWhitespace(s[i])
  }

  predicate NoWhitespace(s: string) {
    forall i :: 0 <= i < |s| ==> !IsWhitespace(s[i])
  }

  // ---------------------------------------------------------------- trim

  function TrimStart(s: string): (r: string)
    ensures |r| <= |s| && r == s[|s| - |r|..]
    ensures AllWhitespace(s[..|s| - |r|])
    ensures r == [] || !IsWhitespace(r[0])
  {
    if s != [] && IsWhitespace(s[0]) then TrimStart(s[1..]) else s
  }

  function TrimEnd(s: string): (r: string)
    ensures |r| <= |s| && r == s[..|r|]
    ensures AllWhitespace(s[|r|..])
    ensures r == [] || !IsWhitespace(r[|r| - 1])
  {
    if s != [] && IsWhitespace(s[|s| - 1]) then TrimEnd(s[..|s| - 1]) else s
  }

  /** `s.trim()`: the slice of `s` left after removing whitespace at both ends. */
  function Trim(s: string): (r: string)
    ensures exists i, j :: 0 <= i <= j <= |s| && r == s[i..j]
                          && AllWhitespace(s[..i]) && AllWhitespace(s[j..])
    ensures r == [] || (!IsWhitespace(r[0]) && !IsWhitespace(r[|r| - 1]))
    ensures |r| <= |s|
  {
    var t := TrimStart(s);
    var r := TrimEnd(t);
    TrimIsSlice(s, t, r, |s| - |t|);
    r
  }

  /**
   * Trimming the end of the suffix of `s` at `i`, where `s` has only
   * whitespace before `i`, leaves a slice of `s` with whitespace around it.
   */
  lemma TrimIsSlice(s: string, t: string, r: string, i: int)
    requires 0 <= i <= |s| && t == s[i..] && |r| <= |t| && r == t[..|r|]
    requires AllWhitespace(s[..i]) && AllWhitespace(t[|r|..])
    requires t == [] || !IsWhitespace(t[0])
    requires r == [] || !IsWhitespace(r[|r| - 1])
    ensures exists i, j :: 0 <= i <= j <= |s| && r == s[i..j]
                          && AllWhitespace(s[..i]) && AllWhitespace(s[j..])
    ensures r == [] || (!IsWhitespace(r[0]) && !IsWhitespace(r[|r| - 1]))
  {
    PrefixOfSuffix(s, t, r, i);
    if r != [] {
      assert r[0] == t[0];
    }
  }

  /** A prefix `r` of the suffix `t` of `s` starting at `i` is the slice of `s` at `i`. */
  lemma PrefixOfSuffix(s: string, t: string, r: string, i: int)
    requires 0 <= i <= |s| && t == s[i..] && |r| <= |t| && r == t[..|r|]
    ensures i + |r| <= |s| && r == s[i..i + |r|] && s[i + |r|..] == t[|r|..]
  {
  }

  /** Trimming changes nothing when there is no whitespace at either end. */
  lemma TrimTrimmed(s: string)
    requires s == [] || (!IsWhitespace(s[0]) && !IsWhitespace(s[|s| - 1]))
    ensures Trim(s) == s
  {
  }

  // ------------------------------------------------------ search and slices

  /** `s.includes(sub)`: `sub` occurs somewhere in `s`. */
  function Contains(s: string, sub: string): bool
    decreases |s|
  {
    sub <= s || (s != [] && Contains(s[1..], sub))
  }

  /** An occurrence at any position is found. */
  lemma {:induction false} ContainsAt(s: string, sub: string, i: int)
    ensures 0 <= i <= |s| && sub <= s[i..] ==> Contains(s, sub)
    decreases |s|
  {
    if 0 < i <= |s| && sub <= s[i..] {
      assert s[1..][i - 1..] == s[i..];
      ContainsAt(s[1..], sub, i - 1);
    }
  }

  /** The first index of `c` in `s`, which must occur. */
  function IndexOf(s: string, c: char): (r: nat)
    requires c in s
    ensures r < |s| && s[r] == c && c !in s[..r]
  {
    if s[0] == c then 0
    else
      var r := IndexOf(s[1..], c);
      assert s[..r + 1] == [s[0]] + s[1..][..r];
      r + 1
  }

  /** The index of a `c` with none before it is the index `IndexOf` finds. */
  lemma {:induction false} IndexOfFirst(s: string, c: char, i: int)
    requires 0 <= i < |s| && s[i] == c && c !in s[..i]
    ensures IndexOf(s, c) == i
    decreases i
  {
    if i > 0 {
      assert s[..i][0] == s[0];
      assert s[1..][..i - 1] == s[..i][1..];
      IndexOfFirst(s[1..], c, i - 1);
    }
  }

  /** `s.lastIndexOf(c)`: the greatest index holding `c`, or -1. */
  function LastIndexOf(s: string, c: char): (r: int)
    ensures -1 <= r < |s|
    ensures r == -1 <==> c !in s
    ensures r >= 0 ==> s[r] == c && c !in s[r + 1..]
  {
    if s == [] then -1
    else if s[|s| - 1] == c then |s| - 1
    else
      var r := LastIndexOf(s[..|s| - 1], c);
      assert s == s[..|s| - 1] + [s[|s| - 1]];
      r
  }

  function Clamp(x: int, len: nat): (r: nat)
    ensures r <= len
    ensures 0 <= x <= len ==> r == x
  {
    if x < 0 then 0 else if x > len then len else x
  }

  /** `s.substring(start, end)`: both ends clamped into range, swapped when out of order. */
  function Substring(s: string, start: int, end: int): (r: string)
    ensures 0 <= start <= end <= |s| ==> r == s[start..end]
    ensures start <= 0 ==> r == s[..Clamp(end, |s|)]
  {
    var a, b := Clamp(start, |s|), Clamp(end, |s|);
    if a <= b then s[a..b] else s[b..a]
  }

  // ------------------------------------------------------------ replace

  /**
   * `s.replace(/pat/g, rep)` for a literal pattern: a left-to-right scan that
   * replaces non-overlapping occurrences and never rescans inserted text.
   */
  function ReplaceAll(s: string, pat: string, rep: string): string
    requires pat != []
    decreases |s|
  {
    if s == [] then []
    else if pat <= s then rep + ReplaceAll(s[|pat|..], pat, rep)
    else [s[0]] + ReplaceAll(s[1..], pat, rep)
  }

  /** A replacement that is no longer than its pattern never lengthens the text. */
  lemma {:induction false} ReplaceAllShortens(s: string, pat: string, rep: string)
    requires pat != [] && |rep| <= |pat|
    ensures |ReplaceAll(s, pat, rep)| <= |s|
    decreases |s|
  {
    if s == [] {
    } else if pat <= s {
      ReplaceAllShortens(s[|pat|..], pat, rep);
    } else {
      ReplaceAllShortens(s[1..], pat, rep);
    }
  }

  /** Text in which the pattern does not occur comes back unchanged. */
  lemma {:induction false} ReplaceAllAbsent(s: string, pat: string, rep: string)
    requires pat != [] && !Contains(s, pat)
    ensures ReplaceAll(s, pat, rep) == s
    decreases |s|
  {
    if s != [] {
      ReplaceAllAbsent(s[1..], pat, rep);
    }
  }

  /** Text without the pattern's first character holds no occurrence, so it comes back unchanged. */
  lemma {:induction false} ReplaceAllWithoutFirst(s: string, pat: string, rep: string)
    requires pat != []
    ensures pat[0] !in s ==> ReplaceAll(s, pat, rep) == s
    decreases |s|
  {
    if s != [] && pat[0] !in s {
      assert s[0] != pat[0];
      ReplaceAllWithoutFirst(s[1..], pat, rep);
      assert pat[0] !in s[1..] by {
        forall i | 0 <= i < |s[1..]| ensures s[1..][i] != pat[0] {
          assert s[1..][i] == s[i + 1];
        }
      }
    }
  }

  /** A stretch without the pattern's first character is copied through unchanged. */
  lemma {:induction false} ReplaceAllSkips(u: string, v: string, pat: string, rep: string)
    requires pat != [] && pat[0] !in u
    ensures ReplaceAll(u + v, pat, rep) == u + ReplaceAll(v, pat, rep)
    decreases |u|
  {
    if u != [] {
      assert (u + v)[0] == u[0] && (u + v)[1..] == u[1..] + v;
      assert !(pat <= u + v);
      assert pat[0] !in u[1..] by {
        forall i | 0 <= i < |u[1..]| ensures u[1..][i] != pat[0] {
          assert u[1..][i] == u[i + 1];
        }
      }
      ReplaceAllSkips(u[1..], v, pat, rep);
    } else {
      assert u + v == v;
    }
  }

  // -------------------------------------------------------------- split

  /** The index of the first whitespace character, or `|s|`. */
  function FirstWhitespace(s: string): (k: nat)
    ensures k <= |s| && NoWhitespace(s[..k])
    ensures k < |s| ==> IsWhitespace(s[k])
  {
    if s == [] || IsWhitespace(s[0]) then 0
    else
      var k := FirstWhitespace(s[1..]);
      assert s[..k + 1] == [s[0]] + s[1..][..k];
      k + 1
  }

  /** The index of a whitespace character with none before it is the index `FirstWhitespace` finds. */
  lemma {:induction false} FirstWhitespaceAt(s: string, i: int)
    requires 0 <= i <= |s| && NoWhitespace(s[..i]) && (i < |s| ==> IsWhitespace(s[i]))
    ensures FirstWhitespace(s) == i
    decreases i
  {
    if i > 0 {
      assert s[..i][0] == s[0];
      assert s[1..][..i - 1] == s[..i][1..];
      FirstWhitespaceAt(s[1..], i - 1);
    }
  }

  /** Trimming the start removes a whole leading run of whitespace and nothing more. */
  lemma {:induction false} TrimStartRun(w: string, v: string)
    requires AllWhitespace(w) && (v == [] || !IsWhitespace(v[0]))
    ensures TrimStart(w + v) == v
    decreases |w|
  {
    if w != [] {
      assert (w + v)[0] == w[0] && (w + v)[1..] == w[1..] + v;
      assert AllWhitespace(w[1..]) by {
        forall k | 0 <= k < |w[1..]| ensures IsWhitespace(w[1..][k]) { assert w[1..][k] == w[k + 1]; }
      }
      TrimStartRun(w[1..], v);
    } else {
      assert w + v == v;
    }
  }

  /** `s.split(/\s+/)`: the pieces between maximal runs of whitespace, empty pieces at the ends included. */
  function SplitOnWhitespace(s: string): (pieces: seq<string>)
    ensures |pieces| >= 1
    ensures forall i :: 0 <= i < |pieces| ==> NoWhitespace(pieces[i])
    decreases |s|
  {
    var k := FirstWhitespace(s);
    if k == |s| then [s]
    else [s[..k]] + SplitOnWhitespace(TrimStart(s[k..]))
  }

  /** Trimming the start keeps a last character that is not whitespace. */
  lemma TrimStartKeepsLast(s: string)
    requires s != [] && !IsWhitespace(s[|s| - 1])
    ensures TrimStart(s) != [] && TrimStart(s)[|TrimStart(s)| - 1] == s[|s| - 1]
  {
    var t := TrimStart(s);
    assert s[..|s|] == s;
    assert !AllWhitespace(s) by { assert !IsWhitespace(s[|s| - 1]); }
    assert t != [];
    assert t[|t| - 1] == s[|s| - 1];
  }

  /** A single word is split into itself. */
  lemma SplitOneWord(s: string)
    requires NoWhitespace(s)
    ensures SplitOnWhitespace(s) == [s]
  {
    FirstWhitespaceAt(s, |s|);
    assert s[..|s|] == s;
  }

  /**
   * A word followed by a maximal run of whitespace is split off as the first
   * piece, and the split goes on from the text after the run.
   */
  lemma SplitAfterWord(u: string, w: string, v: string)
    requires NoWhitespace(u) && w != [] && AllWhitespace(w) && (v == [] || !IsWhitespace(v[0]))
    ensures SplitOnWhitespace(u + w + v) == [u] + SplitOnWhitespace(v)
  {
    var rest := w + v;
    var s := u + rest;
    assert u + w + v == s;
    assert s[..|u|] == u && s[|u|..] == rest;
    assert s[|u|] == w[0];
    SplitAt(s, |u|);
    TrimStartRun(w, v);
  }

  /** At the first whitespace character the text is split into the word before it and the split of the rest, trimmed. */
  lemma SplitAt(s: string, k: int)
    requires 0 <= k < |s| && NoWhitespace(s[..k]) && IsWhitespace(s[k])
    ensures SplitOnWhitespace(s) == [s[..k]] + SplitOnWhitespace(TrimStart(s[k..]))
  {
    FirstWhitespaceAt(s, k);
  }

  /**
   * A text with no whitespace at either end splits into words only: every
   * piece is non-empty, so the number of pieces is the number of words.
   */
  lemma {:induction false} SplitTrimmedPieces(s: string)
    requires s != [] && !IsWhitespace(s[0]) && !IsWhitespace(s[|s| - 1])
    ensures forall i :: 0 <= i < |SplitOnWhitespace(s)| ==> SplitOnWhitespace(s)[i] != []
    decreases |s|
  {
    var k := FirstWhitespace(s);
    assert k != 0;
    if k < |s| {
      var rest := s[k..];
      var t := TrimStart(rest);
      assert rest[|rest| - 1] == s[|s| - 1];
      TrimStartKeepsLast(rest);
      SplitTrimmedPieces(t);
      assert SplitOnWhitespace(s) == [s[..k]] + SplitOnWhitespace(t);
      NonEmptyCons(s[..k], SplitOnWhitespace(t));
    }
  }

  lemma NonEmptyCons(head: string, tail: seq<string>)
    requires head != [] && forall i :: 0 <= i < |tail| ==> tail[i] != []
    ensures forall i :: 0 <= i < |[head] + tail| ==> ([head] + tail)[i] != []
  {
    forall i | 0 < i < |[head] + tail| ensures ([head] + tail)[i] != [] {
      assert ([head] + tail)[i] == tail[i - 1];
    }
  }

  function Concat(pieces: seq<string>): string {
    if pieces == [] then [] else pieces[0] + Concat(pieces[1..])
  }

  /** `s` with every whitespace character removed. */
  function RemoveWhitespace(s: string): (r: string)
    ensures NoWhitespace(r)
  {
    if s == [] then []
    else if IsWhitespace(s[0]) then RemoveWhitespace(s[1..])
    else [s[0]] + RemoveWhitespace(s[1..])
  }

  lemma {:induction false} RemoveWhitespaceAppend(a: string, b: string)
    ensures RemoveWhitespace(a + b) == RemoveWhitespace(a) + RemoveWhitespace(b)
  {
    if a == [] {
      assert a + b == b;
    } else {
      assert (a + b)[0] == a[0];
      assert (a + b)[1..] == a[1..] + b;
      RemoveWhitespaceAppend(a[1..], b);
    }
  }

  lemma {:induction false} RemoveWhitespaceOf(s: string)
    ensures AllWhitespace(s) ==> RemoveWhitespace(s) == []
    ensures NoWhitespace(s) ==> RemoveWhitespace(s) == s
  {
    if s != [] {
      RemoveWhitespaceOf(s[1..]);
      assert s == [s[0]] + s[1..];
    }
  }

  /** Splitting loses exactly the whitespace: the pieces put back together are the non-whitespace text. */
  lemma {:induction false} SplitKeepsText(s: string)
    ensures Concat(SplitOnWhitespace(s)) == RemoveWhitespace(s)
    decreases |s|
  {
    var k := FirstWhitespace(s);
    if k == |s| {
      assert s[..k] == s;
      RemoveWhitespaceOf(s);
    } else {
      var t := TrimStart(s[k..]);
      SplitKeepsText(t);
      SplitFirstPiece(s, k, t);
      RemoveFirstPiece(s, k, t);
    }
  }

  lemma SplitFirstPiece(s: string, k: nat, t: string)
    requires k == FirstWhitespace(s) && k < |s| && t == TrimStart(s[k..])
    ensures Concat(SplitOnWhitespace(s)) == s[..k] + Concat(SplitOnWhitespace(t))
  {
    var rest := SplitOnWhitespace(t);
    assert SplitOnWhitespace(s) == [s[..k]] + rest;
    assert ([s[..k]] + rest)[1..] == rest;
  }

  lemma RemoveFirstPiece(s: string, k: nat, t: string)
    requires k == FirstWhitespace(s) && k < |s| && t == TrimStart(s[k..])
    ensures RemoveWhitespace(s) == s[..k] + RemoveWhitespace(t)
  {
    var head, tail := s[..k], s[k..];
    WhitespaceRunRemoved(tail, t);
    RemoveWhitespaceOf(head);
    RemoveWhitespaceAppend(head, tail);
    assert s == head + tail;
  }

  lemma WhitespaceRunRemoved(tail: string, t: string)
    requires t == TrimStart(tail)
    ensures RemoveWhitespace(tail) == RemoveWhitespace(t)
  {
    var w := tail[..|tail| - |t|];
    PrefixAndSuffix(tail, |tail| - |t|);
    RemoveLeadingRun(w, t);
  }

  lemma PrefixAndSuffix(s: string, n: int)
    requires 0 <= n <= |s|
    ensures s == s[..n] + s[n..]
  {
  }

  lemma RemoveLeadingRun(w: string, t: string)
    requires AllWhitespace(w)
    ensures RemoveWhitespace(w + t) == RemoveWhitespace(t)
  {
    RemoveWhitespaceOf(w);
    RemoveWhitespaceAppend(w, t);
    assert RemoveWhitespace(w + t) == [] + RemoveWhitespace(t);
  }

  // --------------------------------------------------- numbers as text

  /** `arr.join(sep)`. */
  function Join(parts: seq<string>, sep: string): string {
    if parts == [] then []
    else if |parts| == 1 then parts[0]
    else parts[0] + sep + Join(parts[1..], sep)
  }

  predicate IsDigit(c: char) {
    '0' <= c <= '9'
  }

  /** A non-empty run of decimal digits. */
  predicate IsDecimal(s: string) {
    |s| > 0 && forall i :: 0 <= i < |s| ==> IsDigit(s[i])
  }

  function DigitChar(d: nat): char
    requires d < 10
  {
    "0123456789"[d]
  }

  /** Decimal rendering of a natural number, as `String(n)` and `${n}` produce it. */
  function NatToString(n: nat): string
  {
    if n < 10 then [DigitChar(n)] else NatToString(n / 10) + [DigitChar(n % 10)]
  }

  /** Decimal rendering of an integer, with a leading `-` when negative. */
  function IntToString(i: int): string {
    if i < 0 then "-" + NatToString(-i) else NatToString(i)
  }

  function DigitValue(c: char): (d: nat)
    requires IsDigit(c)
    ensures d < 10
  {
    assert '0' as int <= c as int <= '9' as int;
    c as int - '0' as int
  }

  /** `parseInt(s, 10)` on a string of decimal digits. */
  function ParseDecimal(s: string): nat
    requires forall i :: 0 <= i < |s| ==> IsDigit(s[i])
  {
    if s == [] then 0
    else ParseDecimal(s[..|s| - 1]) * 10 + DigitValue(s[|s| - 1])
  }

  lemma {:induction false} NatToStringIsDecimal(n: nat)
    ensures IsDecimal(NatToString(n))
  {
    if n >= 10 {
      NatToStringIsDecimal(n / 10);
    }
  }

  /** Parsing the decimal rendering of a number gives the number back. */
  lemma {:induction false} ParseNatToString(n: nat)
    ensures IsDecimal(NatToString(n))
    ensures ParseDecimal(NatToString(n)) == n
  {
    NatToStringIsDecimal(n);
    if n >= 10 {
      var s := NatToString(n);
      assert s[..|s| - 1] == NatToString(n / 10);
      ParseNatToString(n / 10);
    }
  }
}

=== FILE: js_values.dfy ===
/**
 * JavaScript values as the client sees them: the values of a parsed JSON
 * body, of a thrown object's properties and of a query-parameter record.
 * Only integral numbers are modelled.
 */
module JsValues {
  import opened Wrappers
  import JsStrings

  datatype JsValue =
    | Undefined
    | Null
    | Bool(b: bool)
    | Num(n: int)
    | Str(s: string)
    | Arr(items: seq<JsValue>)
    | Obj(fields: map<string, JsValue>)

  /** A plain object with its own keys in insertion order, the order `Object.keys` lists keys that are not integer-like. */
  type Record = seq<(string, JsValue)>

  /** JavaScript truthiness: `false`, `0`, `""`, `null` and `undefined` are falsy. */
  predicate Truthy(v: JsValue) {
    match v
    case Undefined => false
    case Null => false
    case Bool(b) => b
    case Num(n) => n != 0
    case Str(s) => s != ""
    case Arr(_) => true
    case Obj(_) => true
  }

  /** Truthiness of an optional number-typed property. */
  predicate TruthyInt(o: Option<int>) {
    o.Some? && o.value != 0
  }

  /** Truthiness of an optional string-typed property. */
  predicate TruthyStr(o: Option<string>) {
    o.Some? && o.value != ""
  }

  predicate IsNullish(v: JsValue) {
    v.Undefined? || v.Null?
  }

  /** Property access `v.key`; None stands for `undefined` (no such property, or `v` is not an object). */
  function Get(v: JsValue, key: string): (r: Option<JsValue>)
    ensures r.Some? <==> v.Obj? && key in v.fields
  {
    match v
    case Obj(fields) => if key in fields then Some(fields[key]) else None
    case _ => None
  }

  /** `record[key]` on an ordered record: the first entry with that key. */
  function Lookup(r: Record, key: string): Option<JsValue> {
    if r == [] then None
    else if r[0].0 == key then Some(r[0].1)
    else Lookup(r[1..], key)
  }

  /** The numbers of a `number[]` as JavaScript values. */
  function Nums(xs: seq<int>): (r: seq<JsValue>)
    ensures |r| == |xs|
    ensures forall i :: 0 <= i < |xs| ==> r[i] == Num(xs[i])
  {
    seq(|xs|, i requires 0 <= i < |xs| => Num(xs[i]))
  }

  /** Reads a `number[]` back; None when some element is not a number. */
  function IntsOf(items: seq<JsValue>): (r: Option<seq<int>>)
    ensures r.Some? ==> Nums(r.value) == items
  {
    if items == [] then Some([])
    else match (items[0], IntsOf(items[1..]))
      case (Num(n), Some(rest)) => Some([n] + rest)
      case _ => None
  }

  lemma {:induction false} IntsOfNums(xs: seq<int>)
    ensures IntsOf(Nums(xs)) == Some(xs)
  {
    if xs != [] {
      assert Nums(xs)[1..] == Nums(xs[1..]);
      IntsOfNums(xs[1..]);
      assert [xs[0]] + xs[1..] == xs;
    }
  }

  /**
   * `String(v)` for the values a query parameter can hold: numbers in
   * decimal, arrays joined by `,` with `null`/`undefined` elements empty,
   * plain objects as "[object Object]".
   */
  function ToStr(v: JsValue): string
    decreases v
  {
    match v
    case Undefined => "undefined"
    case Null => "null"
    case Bool(b) => if b then "true" else "false"
    case Num(n) => JsStrings.IntToString(n)
    case Str(s) => s
    case Arr(items) =>
      JsStrings.Join(seq(|items|, i requires 0 <= i < |items| =>
        if IsNullish(items[i]) then "" else ToStr(items[i])), ",")
    case Obj(_) => "[object Object]"
  }
}

=== FILE: pagination_utils.dfy ===
/**
 * Page arithmetic for the blog's pagination controls: the request
 * parameters for a page, the next/previous flags, and the window of page
 * numbers shown around the current page.
 */
module PaginationUtils {
  import opened Wrappers
  import opened WpTypes

  // ---------------------------------------------------- createPaginationParams

  /**
   * The request parameters for page `currentPage` (default 1) with
   * `postsPerPage` posts a page (default 10): the offset skips every post of
   * the earlier pages.
   */
  function CreatePaginationParams(currentPage: Option<int>, postsPerPage: Option<int>): (r: PaginationParams)
    ensures r.page == Some(currentPage.GetOr(1)) && r.perPage == Some(postsPerPage.GetOr(10))
    ensures r.offset == Some((r.page.value - 1) * r.perPage.value)
  {
    var page := currentPage.GetOr(1);
    var perPage := postsPerPage.GetOr(10);
    PaginationParams(Some(page), Some(perPage), Some((page - 1) * perPage))
  }

  /** The first page starts at offset 0, and each page starts `perPage` posts after the one before. */
  lemma {:induction false} OffsetsAdvanceByPage(page: int, perPage: int)
    ensures CreatePaginationParams(Some(1), Some(perPage)).offset == Some(0)
    ensures CreatePaginationParams(Some(page + 1), Some(perPage)).offset.value
         == CreatePaginationParams(Some(page), Some(perPage)).offset.value + perPage
  {
    assert page * perPage == (page - 1) * perPage + perPage;
  }

  /**
   * For a real page (1 or later) and a positive page size, the offset is
   * a whole number of pages: `page - 1` of them, never negative.
   */
  lemma {:induction false} OffsetCountsEarlierPages(page: int, perPage: int)
    requires page >= 1 && perPage > 0
    ensures var offset := CreatePaginationParams(Some(page), Some(perPage)).offset.value;
            offset >= 0 && offset % perPage == 0 && offset / perPage == page - 1
  {
    var offset := (page - 1) * perPage;
    MulNonNegative(page - 1, perPage);
    var q, m := offset / perPage, offset % perPage;
    assert perPage * (page - 1 - q) == m;
    if page - 1 - q >= 1 {
      MulAtLeast(page - 1 - q, perPage);
    } else if page - 1 - q <= -1 {
      MulAtLeast(q - (page - 1), perPage);
    }
  }

  lemma MulNonNegative(a: int, b: int)
    requires a >= 0 && b >= 0
    ensures a * b >= 0
  {
  }

  lemma {:induction false} MulAtLeast(k: int, d: int)
    requires k >= 1 && d > 0
    ensures d * k >= d
    decreases k
  {
    if k > 1 {
      MulAtLeast(k - 1, d);
      assert d * k == d * (k - 1) + d;
    }
  }

  /** The defaults are page 1 of ten posts, which starts at offset 0. */
  lemma DefaultPaginationParams()
    ensures CreatePaginationParams(None, None) == PaginationParams(Some(1), Some(10), Some(0))
  {
  }

  // --------------------------------------------------- calculatePaginationInfo

  datatype PaginationInfo = PaginationInfo(
    currentPage: int,
    totalPages: int,
    totalPosts: int,
    postsPerPage: int,
    hasNextPage: bool,
    hasPrevPage: bool,
    nextPage: Option<int>,
    prevPage: Option<int>)

  /** The state of the pagination controls on page `currentPage` of `totalPages`. */
  function CalculatePaginationInfo(currentPage: int, totalPages: int, totalPosts: int, postsPerPage: int): (r: PaginationInfo)
    ensures r.currentPage == currentPage && r.totalPages == totalPages
    ensures r.totalPosts == totalPosts && r.postsPerPage == postsPerPage
    ensures r.hasNextPage <==> currentPage < totalPages
    ensures r.hasPrevPage <==> currentPage > 1
    ensures r.nextPage.Some? <==> r.hasNextPage
    ensures r.prevPage.Some? <==> r.hasPrevPage
    ensures r.nextPage.Some? ==> r.nextPage.value == currentPage + 1 && r.nextPage.value <= totalPages
    ensures r.prevPage.Some? ==> r.prevPage.value == currentPage - 1 && r.prevPage.value >= 1
  {
    PaginationInfo(
      currentPage, totalPages, totalPosts, postsPerPage,
      currentPage < totalPages,
      currentPage > 1,
      if currentPage < totalPages then Some(currentPage + 1) else None,
      if currentPage > 1 then Some(currentPage - 1) else None)
  }

  /** Following "next" and then "previous" comes back to the same page, and vice versa. */
  lemma NextThenPrev(currentPage: int, totalPages: int, totalPosts: int, postsPerPage: int)
    ensures var info := CalculatePaginationInfo(currentPage, totalPages, totalPosts, postsPerPage);
            info.nextPage.Some? && currentPage >= 1 ==>
              CalculatePaginationInfo(info.nextPage.value, totalPages, totalPosts, postsPerPage).prevPage == Some(currentPage)
    ensures var info := CalculatePaginationInfo(currentPage, totalPages, totalPosts, postsPerPage);
            info.prevPage.Some? && currentPage <= totalPages ==>
              CalculatePaginationInfo(info.prevPage.value, totalPages, totalPosts, postsPerPage).nextPage == Some(currentPage)
  {
  }

  /** Page 1 has no previous page and the last page has no next page. */
  lemma FirstAndLastPage(totalPages: int, totalPosts: int, postsPerPage: int)
    ensures CalculatePaginationInfo(1, totalPages, totalPosts, postsPerPage).prevPage == None
    ensures CalculatePaginationInfo(totalPages, totalPages, totalPosts, postsPerPage).nextPage == None
  {
  }

  // ------------------------------------------------------- generatePageNumbers

  /** `Array.from({ length: n }, (_, i) => start + i)`; a negative length gives an empty array. */
  function Run(start: int, n: int): (r: seq<int>)
    ensures |r| == if n < 0 then 0 else n
    ensures forall i :: 0 <= i < |r| ==> r[i] == start + i
  {
    if n <= 0 then [] else seq(n, i => start + i)
  }

  /** Consecutive ascending integers. */
  predicate Consecutive(pages: seq<int>) {
    forall i :: 0 <= i < |pages| - 1 ==> pages[i + 1] == pages[i] + 1
  }

  /**
   * The page numbers to show, with at most `maxVisible` of them (default 5).
   * When every page fits they are all shown; otherwise a window of
   * `maxVisible` pages starts `maxVisible / 2` (rounded down) pages before
   * the current one, is cut at the last page, and is then slid back so that
   * it again holds `maxVisible` pages.
   */
  method GeneratePageNumbers(currentPage: int, totalPages: int, maxVisible: Option<int>) returns (pages: seq<int>)
    ensures var mv := maxVisible.GetOr(5);
            totalPages <= mv ==>
              |pages| == (if totalPages < 0 then 0 else totalPages)
              && forall i :: 0 <= i < |pages| ==> pages[i] == i + 1
    ensures var mv := maxVisible.GetOr(5);
            totalPages > mv ==> |pages| == (if mv < 0 then 0 else mv)
    ensures Consecutive(pages)
    ensures forall i :: 0 <= i < |pages| ==> 1 <= pages[i] <= totalPages
    ensures 1 <= currentPage <= totalPages && maxVisible.GetOr(5) >= 1 ==> currentPage in pages
    ensures var mv := maxVisible.GetOr(5);
            totalPages > mv >= 1 ==>
              var first := if currentPage - mv / 2 > 1 then currentPage - mv / 2 else 1;
              if first + mv - 1 > totalPages then pages[|pages| - 1] == totalPages
              else pages[0] == first
  {
    var visible := maxVisible.GetOr(5);
    if totalPages <= visible {
      pages := Run(1, totalPages);
      if 1 <= currentPage <= totalPages {
        assert pages[currentPage - 1] == currentPage;
      }
      return;
    }
    var half := visible / 2;
    var start := if 1 > currentPage - half then 1 else currentPage - half;
    var end := if totalPages < start + visible - 1 then totalPages else start + visible - 1;
    if end - start + 1 < visible {
      start := if 1 > end - visible + 1 then 1 else end - visible + 1;
    }
    pages := Run(start, end - start + 1);
    if 1 <= currentPage <= totalPages && visible >= 1 {
      assert pages[currentPage - start] == currentPage;
    }
  }
}

=== FILE: wordpress_api.dfy ===
/**
 * The repository layer: the blog's read operations composed from the REST
 * client. The client is an oracle, `Api`, that answers each request with
 * the decoded result or the error the client raised; nothing here changes
 * state.
 */
module WordPressApi {
  import opened Wrappers
  import opened JsValues
  import opened WpTypes
  import opened ApiErrors
  import JsStrings
  import ApiUtils
  import DataTransforms

  /** A page of posts as `getWithHeaders` returns it: the decoded body and the pagination headers. */
  datatype Listing = Listing(data: seq<Post>, headers: ApiUtils.PageHeaders)

  /**
   * The REST client, by the shape of what is asked of it: `listPosts` is
   * `getWithHeaders<WordPressPost[]>`, `findPosts` is `get<WordPressPost[]>`
   * with parameters, and `post`, `terms` and `media` are `get` of a single
   * post, a term list and a media item. Each is given the endpoint (and
   * the parameters).
   */
  datatype Api = Api(
    listPosts: (string, Record) -> Result<Listing, ApiError>,
    findPosts: (string, Record) -> Result<seq<Post>, ApiError>,
    post: string -> Result<Post, ApiError>,
    terms: string -> Result<seq<Term>, ApiError>,
    media: string -> Result<Media, ApiError>)

  // ------------------------------------------------------------------ getPosts

  /** getPosts: one page of posts for the filter, with the totals from the headers. */
  function GetPosts(api: Api, params: PostQueryParams): (r: Result<PostsPage<Post>, ApiError>)
    ensures var answer := api.listPosts("/posts", ApiUtils.PostQuery(params));
            && (r.Failure? <==> answer.Failure?)
            && (r.Failure? ==> r.error == answer.error)
            && (r.Success? ==>
                  var info := ApiUtils.ExtractPaginationInfo(answer.value.headers);
                  && r.value.data == answer.value.data
                  && r.value.total == info.total && r.value.totalPages == info.totalPages)
    ensures r.Success? ==> r.value.currentPage == (if TruthyInt(params.page) then params.page.value else 1)
  {
    match api.listPosts("/posts", ApiUtils.PostQuery(params))
    case Failure(e) => Failure(e)
    case Success(listing) =>
      var info := ApiUtils.ExtractPaginationInfo(listing.headers);
      Success(PostsPage(listing.data, info.total, info.totalPages,
                        if TruthyInt(params.page) then params.page.value else 1))
  }

  /** The page number reported is never 0: a missing or zero page is reported as page 1. */
  lemma GetPostsCurrentPage(api: Api, params: PostQueryParams)
    ensures GetPosts(api, params).Success? ==> GetPosts(api, params).value.currentPage != 0
    ensures GetPosts(api, params).Success? && !TruthyInt(params.page) ==> GetPosts(api, params).value.currentPage == 1
  {
  }

  // ------------------------------------------------------------- single reads

  /** getPostBySlug: the first post with the slug, or nothing when there is none or the request failed. */
  function GetPostBySlug(api: Api, slug: string): (r: Option<Post>)
    ensures var answer := api.findPosts("/posts", [("slug", Str(slug))]);
            r.Some? <==> answer.Success? && |answer.value| > 0
    ensures r.Some? ==> r.value == api.findPosts("/posts", [("slug", Str(slug))]).value[0]
  {
    match api.findPosts("/posts", [("slug", Str(slug))])
    case Failure(_) => None
    case Success(posts) => if |posts| > 0 then Some(posts[0]) else None
  }

  /** getPostById: the post at `/posts/{id}`, or nothing when the request failed. */
  function GetPostById(api: Api, id: int): (r: Option<Post>)
    ensures var answer := api.post("/posts/" + JsStrings.IntToString(id));
            (r.Some? <==> answer.Success?) && (r.Some? ==> r.value == answer.value)
  {
    match api.post("/posts/" + JsStrings.IntToString(id))
    case Failure(_) => None
    case Success(post) => Some(post)
  }

  /** A term list, empty when the request failed. */
  function TermsOrEmpty(answer: Result<seq<Term>, ApiError>): (r: seq<Term>)
    ensures answer.Failure? ==> r == []
    ensures answer.Success? ==> r == answer.value
  {
    match answer
    case Failure(_) => []
    case Success(terms) => terms
  }

  /** getCategories: every category, or none when the request failed. */
  function GetCategories(api: Api): (r: seq<Category>)
    ensures api.terms("/categories").Failure? ==> r == []
    ensures api.terms("/categories").Success? ==> r == api.terms("/categories").value
  {
    TermsOrEmpty(api.terms("/categories"))
  }

  /** getTags: every tag, or none when the request failed. */
  function GetTags(api: Api): (r: seq<Tag>)
    ensures api.terms("/tags").Failure? ==> r == []
    ensures api.terms("/tags").Success? ==> r == api.terms("/tags").value
  {
    TermsOrEmpty(api.terms("/tags"))
  }

  /** getFeaturedMedia: the media item, nothing for id 0 and nothing when the request failed. */
  function GetFeaturedMedia(api: Api, mediaId: int): (r: Option<Media>)
    ensures mediaId == 0 ==> r == None
    ensures mediaId != 0 ==>
              var answer := api.media("/media/" + JsStrings.IntToString(mediaId));
              (r.Some? <==> answer.Success?) && (r.Some? ==> r.value == answer.value)
  {
    if mediaId == 0 then None
    else
      match api.media("/media/" + JsStrings.IntToString(mediaId))
      case Failure(_) => None
      case Success(media) => Some(media)
  }

  /** Id 0 never reaches the client: the answer is the same whatever the client would say. */
  lemma FeaturedMediaZeroSkipsClient(api1: Api, api2: Api)
    ensures GetFeaturedMedia(api1, 0) == GetFeaturedMedia(api2, 0)
  {
  }

  // --------------------------------------------------- transformToSimplifiedPost

  /** transformToSimplifiedPost: the display fields of a post; the featured image is never filled in. */
  function TransformToSimplifiedPost(post: Post): (r: SimplifiedPost)
    ensures r.id == post.id && r.slug == post.slug && r.date == post.date && r.author == post.author
    ensures r.title == post.title.rendered && r.content == post.content.rendered
    ensures r.excerpt == post.excerpt.rendered
    ensures r.categories == post.categories && r.tags == post.tags
    ensures r.featuredImage == None
  {
    SimplifiedPost(post.id, post.title.rendered, post.content.rendered, post.excerpt.rendered,
                   post.slug, post.date, post.author,
                   if post.featuredMedia > 0 then None else None,
                   post.categories, post.tags)
  }

  /** The featured media id has no effect on the projection. */
  lemma SimplifiedIgnoresFeaturedMedia(post: Post, mediaId: int)
    ensures TransformToSimplifiedPost(post.(featuredMedia := mediaId)) == TransformToSimplifiedPost(post)
  {
  }

  /** The display record built for a post extends exactly this projection. */
  lemma DisplayExtendsSimplified(post: Post, categories: seq<Category>, tags: seq<Tag>, formatDate: string -> string)
    ensures DataTransforms.TransformPostForDisplay(post, categories, tags, formatDate).base == TransformToSimplifiedPost(post)
  {
  }

  // ------------------------------------------------------- parameter overrides

  /** `{ ...params, categories: [categoryId] }`. */
  function ByCategory(categoryId: int, params: PostQueryParams): (p: PostQueryParams)
    ensures p.categories == Some([categoryId])
    ensures p.(categories := params.categories) == params
  {
    params.(categories := Some([categoryId]))
  }

  /** `{ ...params, tags: [tagId] }`. */
  function ByTag(tagId: int, params: PostQueryParams): (p: PostQueryParams)
    ensures p.tags == Some([tagId])
    ensures p.(tags := params.tags) == params
  {
    params.(tags := Some([tagId]))
  }

  /** `{ ...params, search: searchTerm }`. */
  function BySearch(searchTerm: string, params: PostQueryParams): (p: PostQueryParams)
    ensures p.search == Some(searchTerm)
    ensures p.(search := params.search) == params
  {
    params.(search := Some(searchTerm))
  }

  function GetPostsByCategory(api: Api, categoryId: int, params: PostQueryParams): (r: Result<PostsPage<Post>, ApiError>)
    ensures r == GetPosts(api, ByCategory(categoryId, params))
  {
    GetPosts(api, ByCategory(categoryId, params))
  }

  function GetPostsByTag(api: Api, tagId: int, params: PostQueryParams): (r: Result<PostsPage<Post>, ApiError>)
    ensures r == GetPosts(api, ByTag(tagId, params))
  {
    GetPosts(api, ByTag(tagId, params))
  }

  function SearchPosts(api: Api, searchTerm: string, params: PostQueryParams): (r: Result<PostsPage<Post>, ApiError>)
    ensures r == GetPosts(api, BySearch(searchTerm, params))
  {
    GetPosts(api, BySearch(searchTerm, params))
  }

  /** Two filters that agree on every field but `changed` give the same query value for every other key. */
  lemma OverrideKeepsOtherKeys(params: PostQueryParams, updated: PostQueryParams, changed: ApiUtils.Param, key: string)
    requires forall k: ApiUtils.Param :: k != changed ==> ApiUtils.FieldValue(updated, k) == ApiUtils.FieldValue(params, k)
    requires key != changed.Key()
    ensures Lookup(ApiUtils.PostQuery(updated), key) == Lookup(ApiUtils.PostQuery(params), key)
  {
    ApiUtils.PostQueryLookup(updated, key);
    ApiUtils.PostQueryLookup(params, key);
    ApiUtils.ParamNamedInverse(key);
  }

  /** Filtering by category sends `categories=[id]` and leaves every other query key as the filter had it. */
  lemma ByCategoryQuery(categoryId: int, params: PostQueryParams, key: string)
    ensures Lookup(ApiUtils.PostQuery(ByCategory(categoryId, params)), "categories") == Some(Arr([Num(categoryId)]))
    ensures key != "categories" ==>
              Lookup(ApiUtils.PostQuery(ByCategory(categoryId, params)), key) == Lookup(ApiUtils.PostQuery(params), key)
  {
    var updated := ByCategory(categoryId, params);
    ApiUtils.ParamNamedKey(ApiUtils.Categories);
    ApiUtils.PostQueryLookup(updated, "categories");
    assert Nums([categoryId]) == [Num(categoryId)];
    if key != "categories" {
      OverrideKeepsOtherKeys(params, updated, ApiUtils.Categories, key);
    }
  }

  /** Filtering by tag sends `tags=[id]` and leaves every other query key as the filter had it. */
  lemma ByTagQuery(tagId: int, params: PostQueryParams, key: string)
    ensures Lookup(ApiUtils.PostQuery(ByTag(tagId, params)), "tags") == Some(Arr([Num(tagId)]))
    ensures key != "tags" ==>
              Lookup(ApiUtils.PostQuery(ByTag(tagId, params)), key) == Lookup(ApiUtils.PostQuery(params), key)
  {
    var updated := ByTag(tagId, params);
    ApiUtils.ParamNamedKey(ApiUtils.Tags);
    ApiUtils.PostQueryLookup(updated, "tags");
    assert Nums([tagId]) == [Num(tagId)];
    if key != "tags" {
      OverrideKeepsOtherKeys(params, updated, ApiUtils.Tags, key);
    }
  }

  /**
   * Searching sends the term, except an empty one, which buildPostQuery
   * drops, and leaves every other query key as the filter had it.
   */
  lemma BySearchQuery(searchTerm: string, params: PostQueryParams, key: string)
    ensures Lookup(ApiUtils.PostQuery(BySearch(searchTerm, params)), "search") ==
              if searchTerm == "" then None else Some(Str(searchTerm))
    ensures key != "search" ==>
              Lookup(ApiUtils.PostQuery(BySearch(searchTerm, params)), key) == Lookup(ApiUtils.PostQuery(params), key)
  {
    var updated := BySearch(searchTerm, params);
    ApiUtils.ParamNamedKey(ApiUtils.Search);
    ApiUtils.PostQueryLookup(updated, "search");
    if key != "search" {
      OverrideKeepsOtherKeys(params, updated, ApiUtils.Search, key);
    }
  }

  // ------------------------------------------------------------ getRecentPosts

  /** The filter getRecentPosts asks for: `count` posts (default 5), newest first. */
  function RecentParams(count: Option<int>): (p: PostQueryParams)
    ensures p == NoParams.(perPage := Some(count.GetOr(5)), orderBy := Some(ByDate), order := Some(Desc))
  {
    PostQueryParams(None, Some(count.GetOr(5)), None, None, None, None, None, None, Some(Desc), Some(ByDate))
  }

  /** The recent-posts query is `per_page` (left out when the count is 0), then `order=desc` and `orderby=date`. */
  lemma RecentQuery(count: Option<int>)
    ensures var c := count.GetOr(5);
            ApiUtils.PostQuery(RecentParams(count)) ==
              (if c != 0 then [("per_page", Num(c))] else []) + [("order", Str("desc")), ("orderby", Str("date"))]
  {
  }

  /** getRecentPosts: the simplified form of the newest posts; a failure of the listing propagates. */
  function GetRecentPosts(api: Api, count: Option<int>): (r: Result<seq<SimplifiedPost>, ApiError>)
    ensures var page := GetPosts(api, RecentParams(count));
            && (r.Failure? <==> page.Failure?)
            && (r.Failure? ==> r.error == page.error)
            && (r.Success? ==>
                  |r.value| == |page.value.data|
                  && forall i :: 0 <= i < |r.value| ==> r.value[i] == TransformToSimplifiedPost(page.value.data[i]))
  {
    match GetPosts(api, RecentParams(count))
    case Failure(e) => Failure(e)
    case Success(page) =>
      Success(seq(|page.data|, i requires 0 <= i < |page.data| => TransformToSimplifiedPost(page.data[i])))
  }

  // ------------------------------------------------ getPostsWithFeaturedImages

  /** A simplified post and the URL of its featured image, when one was found. */
  datatype PostWithImage = PostWithImage(post: SimplifiedPost, featuredImageUrl: Option<string>)

  /** One post of getPostsWithFeaturedImages: the image is looked up only for a positive media id. */
  function WithFeaturedImage(api: Api, post: Post): (r: PostWithImage)
    ensures r.post == TransformToSimplifiedPost(post)
    ensures r.featuredImageUrl.Some? <==> post.featuredMedia > 0 && GetFeaturedMedia(api, post.featuredMedia).Some?
    ensures r.featuredImageUrl.Some? ==> r.featuredImageUrl.value == GetFeaturedMedia(api, post.featuredMedia).value.sourceUrl
  {
    var simplified := TransformToSimplifiedPost(post);
    if post.featuredMedia > 0 then
      match GetFeaturedMedia(api, post.featuredMedia)
      case None => PostWithImage(simplified, None)
      case Some(media) => PostWithImage(simplified, Some(media.sourceUrl))
    else PostWithImage(simplified, None)
  }

  /**
   * getPostsWithFeaturedImages: the page of posts, each simplified and
   * given its image URL, one item per post in the same order, with the
   * page's totals.
   */
  function GetPostsWithFeaturedImages(api: Api, params: PostQueryParams): (r: Result<PostsPage<PostWithImage>, ApiError>)
    ensures var page := GetPosts(api, params);
            && (r.Failure? <==> page.Failure?)
            && (r.Failure? ==> r.error == page.error)
            && (r.Success? ==>
                  && |r.value.data| == |page.value.data|
                  && (forall i :: 0 <= i < |r.value.data| ==> r.value.data[i] == WithFeaturedImage(api, page.value.data[i]))
                  && r.value.total == page.value.total
                  && r.value.totalPages == page.value.totalPages
                  && r.value.currentPage == page.value.currentPage)
  {
    match GetPosts(api, params)
    case Failure(e) => Failure(e)
    case Success(page) =>
      var items := seq(|page.data|, i requires 0 <= i < |page.data| => WithFeaturedImage(api, page.data[i]));
      Success(PostsPage(items, page.total, page.totalPages, page.currentPage))
  }

  /** A post without a featured image (media id 0 or below) never gets a URL. */
  lemma NoMediaNoUrl(api: Api, params: PostQueryParams, i: int)
    requires GetPosts(api, params).Success? && 0 <= i < |GetPosts(api, params).value.data|
    requires GetPosts(api, params).value.data[i].featuredMedia <= 0
    ensures GetPostsWithFeaturedImages(api, params).value.data[i].featuredImageUrl == None
  {
  }
}

=== FILE: wp_types.dfy ===
/**
 * The records exchanged with the WordPress REST API, reduced to the fields
 * the client reads, and the client's own parameter and result shapes.
 */
module WpTypes {
  import opened Wrappers

  /** A `{ rendered }` rich-text field. */
  datatype Rendered = Rendered(rendered: string)

  datatype Post = Post(
    id: int,
    date: string,
    slug: string,
    status: string,
    title: Rendered,
    content: Rendered,
    excerpt: Rendered,
    author: int,
    featuredMedia: int,          // 0 means "no featured image"
    categories: seq<int>,
    tags: seq<int>)

  /** A taxonomy term; categories and tags are read only for their id and name. */
  datatype Term = Term(id: int, name: string)
  type Category = Term
  type Tag = Term

  datatype Media = Media(id: int, sourceUrl: string)

  /** The display projection of a post. */
  datatype SimplifiedPost = SimplifiedPost(
    id: int,
    title: string,
    content: string,
    excerpt: string,
    slug: string,
    date: string,
    author: int,
    featuredImage: Option<string>,
    categories: seq<int>,
    tags: seq<int>)

  datatype SortOrder = Asc | Desc {
    function Name(): string {
      match this
      case Asc => "asc"
      case Desc => "desc"
    }
  }

  datatype OrderBy = ByDate | ById | ByTitle | BySlug {
    function Name(): string {
      match this
      case ByDate => "date"
      case ById => "id"
      case ByTitle => "title"
      case BySlug => "slug"
    }
  }

  datatype PaginationParams = PaginationParams(page: Option<int>, perPage: Option<int>, offset: Option<int>)

  /** The post filter; every field may be left out. */
  datatype PostQueryParams = PostQueryParams(
    page: Option<int>,
    perPage: Option<int>,
    offset: Option<int>,
    search: Option<string>,
    author: Option<int>,
    categories: Option<seq<int>>,
    tags: Option<seq<int>>,
    status: Option<string>,
    order: Option<SortOrder>,
    orderBy: Option<OrderBy>)

  /** The empty filter `{}`. */
  const NoParams := PostQueryParams(None, None, None, None, None, None, None, None, None, None)

  /** A page of a collection with the pagination totals. */
  datatype PostsPage<T> = PostsPage(data: seq<T>, total: int, totalPages: int, currentPage: int)
}

=== FILE: wrappers.dfy ===
/** Option and Result: absent values and failures made explicit. */
module Wrappers {

  datatype Option<+T> = None | Some(value: T) {
    function GetOr(default: T): T {
      match this
      case Some(v) => v
      case None => default
    }
  }

  datatype Result<+R, +E> = Success(value: R) | Failure(error: E)
}
